=== FILE: README.md ===
# Portfolio back end: authentication, projects, uploads, settings, contact

This project models the server side of a small Next.js portfolio site: a
single administrator signs in with a session cookie, manages portfolio
projects, uploads images, edits the social-network links shown on the site,
and can reset a forgotten password with a one-time token. Visitors read the
projects and send messages through a contact form.

Every route handler becomes a pure function from the database, the parsed
request and the parts of the environment it reads (`NODE_ENV`, the clock,
random bytes) to a `Step`: the HTTP response and the database afterwards.

- `Db`
  - The Prisma tables `User`, `Project`, `Contact` and `Setting` form one immutable `Store`.
  - Rows are kept in id order, so `findFirst` is the first match.
  - `Db.Valid` states the uniqueness the schema enforces: fresh increasing ids and distinct usernames. With it, `findUnique` has at most one answer.
- `Password`
  - bcrypt is abstract: a digest records the password it was made from.
  - `Password.Verify` holds exactly for that password.
- `Text`
  - The JavaScript string operations the handlers use:
    - `String.prototype.trim` over the ECMAScript white-space set;
    - `String(n)` and `Number(s)` on decimal digits;
    - the hex encoding of `randomBytes(32).toString('hex')`.
- `Request`
  - JSON bodies are a map of fields, or a body `req.json()` cannot parse.
  - JavaScript truthiness.
  - zod's `z.string().min(n)`.
- `SessionCookie`
  - The `admin-session` `Set-Cookie` header: rendering it and parsing it back.
- `Auth`: `lib/auth.ts`.
  - Cookie creation and destruction.
  - `getSession`.
  - The bootstrap admin.
  - The library's 15-minute reset tokens.
  - `updatePassword`.
- The route modules:
  - `Login`, `Me` and `ChangePassword`;
  - `ResetPassword`;
  - `Projects`: list and create;
  - `Upload`;
  - `SocialLinks`;
  - `ContactForm`.
- `InitAdminScript`: the command-line bootstrap script with its environment and password-strength gates.

## Model

| member | source | states |
|---|---|---|
| Text.Trim | app/api/projects/route.ts:47-49 | the trimmed text is the infix of the input left after removing white space from both ends: everything outside it is white space, it neither starts nor ends with white space, and it is empty exactly when the input is all white space |
| Text.TrimIdempotent | app/api/projects/route.ts:32-33 | trimming an already trimmed string changes nothing |
| Text.ParseShow | lib/auth.ts:34-35 | `Number` applied to the decimal text `String(n)` gives back `n`, so the id written into a cookie reads back unchanged |
| Text.ShowInjective | lib/auth.ts:19-21 | distinct ids render to distinct cookie values |
| Text.FromHexToHex | app/api/auth/reset-password/route.ts:17-19 | the hex encoding of bytes decodes back to the same bytes |
| Text.ToHexInjective | app/api/auth/reset-password/route.ts:17-19 | distinct byte strings give distinct tokens |
| Password.Hash | lib/auth.ts:8-14 | a password verifies against the digest made from it |
| Db.FindFirst | lib/auth.ts:88-95 | the result is the first row matching the filter, or none when no row matches |
| Db.UniqueMatch | app/api/auth/login/route.ts:25 | on a valid store, at most one row has a given id and at most one has a given username |
| Db.CreateUser | scripts/init-admin.ts:55-60 | one row is appended with the next id and no reset token, the user id counter advances by one, every other table and counter is untouched, and validity is kept when the username is new |
| Db.UpdateUser | app/api/auth/change-password/route.ts:54-57 | only the addressed row changes, and validity is kept |
| Db.CreateProject | app/api/projects/route.ts:53 | one project is appended with the next id and the creation time, the project id counter advances by one, nothing else changes, validity is kept |
| Db.CreateContact | app/api/contact/route.ts:18 | one message is appended with the next id and the creation time, the contact id counter advances by one, nothing else changes, validity is kept |
| Db.Upsert | app/api/auth/social-links/route.ts:59-63 | the key maps to the new value whether or not it existed, and every other key keeps its value |
| SessionCookie.ParseRender | lib/auth.ts:19-22 | a rendered cookie whose value has no `;` parses back to the same value, max-age and secure flag |
| SessionCookie.RenderWeek | lib/auth.ts:19-22 | a week-long session cookie renders to the literal header text, with `; Secure` appended exactly when the flag is set |
| SessionCookie.RenderExpired | lib/auth.ts:24-26 | the expired cookie renders to the literal header text with an empty value and `Max-Age=0` |
| Auth.CreateSessionCookie | lib/auth.ts:19-22 | the header is exactly `admin-session=<id>; Path=/; HttpOnly; SameSite=Lax; Max-Age=604800`, followed by `; Secure` exactly in production; it parses back to that id, a week and the flag |
| Auth.DestroySessionCookie | lib/auth.ts:24-26 | the header is exactly `admin-session=; Path=/; HttpOnly; SameSite=Lax; Max-Age=0`; it parses back to an empty value, a max-age of 0 and no `Secure` flag |
| Auth.GetSession | lib/auth.ts:28-42 | a session exists exactly when the cookie is present, its value is a decimal number, and a user with that id exists; the result is that id |
| Auth.SignedInIffSession | app/api/auth/me/route.ts:9-14 | on a valid store, the `!userId` test rejects exactly the requests without a session |
| Auth.SessionRoundTrip | lib/auth.ts:28-42 | the value of a cookie made for a user id yields that id as the session while the user exists, and no session otherwise |
| Auth.InitAdminUser | lib/auth.ts:48-66 | on an empty user table one `admin` user with password `admin` and no reset token is created; otherwise nothing changes |
| Auth.InitAdminIdempotent | lib/auth.ts:49-51 | running the bootstrap twice is the same as running it once |
| Auth.SetResetTokenAll | lib/auth.ts:77-82 | every user row gets the token and the expiry, and nothing else in the rows changes |
| Auth.CreatePasswordResetToken | lib/auth.ts:73-85 | every user holds the returned token with the returned expiry 15 minutes from now, and validity is kept |
| Auth.ValidateResetToken | lib/auth.ts:88-95 | the result is a user holding the token with an expiry still in the future, and there is none exactly when no user holds the token live |
| Auth.IssuedTokenUnlocksFirstUser | lib/auth.ts:73-95 | a freshly issued library token validates to the first user before its 15 minutes run out |
| Auth.UpdatePassword | lib/auth.ts:98-109 | the update succeeds exactly when the user exists: that row gets the new password's digest and both reset fields cleared, every other row and table stays as it was |
| Login.Credentials | app/api/auth/login/route.ts:6-9 | the body passes exactly when `username` and `password` are non-empty strings, and those are the values returned |
| Login.Post | app/api/auth/login/route.ts:11-53 | an unparseable body gives 500 and a schema failure gives 400; an unknown user or wrong password gives the same 401; success sets the session cookie for the user and returns its id and name; on a valid store, success happens exactly when the credentials are right; the store is never written |
| Login.LoginCookieAuthenticates | app/api/auth/login/route.ts:25-44 | on a valid store, the right name and password get 200 for that user, and the cookie the login sets gives the user's id as the session |
| Me.Get | app/api/auth/me/route.ts:5-35 | 401 exactly when there is no signed-in session, otherwise 200 with the id and name of an existing user with the session id; the store is never written |
| Me.NeverNotFound | app/api/auth/me/route.ts:21-26 | the 404 answer is never given for a request handled against a single store |
| Me.MeAfterLogin | app/api/auth/me/route.ts:16-28 | on a valid store, after a login with the right name and password, the route given the cookie just set returns the same public user the login returned |
| ChangePassword.Passwords | app/api/auth/change-password/route.ts:6-9 | the body passes exactly when `currentPassword` is a non-empty string and `newPassword` a string of at least 6 characters, and those are the values returned |
| ChangePassword.Post | app/api/auth/change-password/route.ts:11-66 | the checks run in order: session (401), body (500/400), current password (400); on a valid store, a signed-in well-formed request gets 200 exactly when the session user's current password is right, and otherwise exactly the 400 `Mot de passe actuel incorrect`; the 404 branch is never taken; success stores the new password's digest on the session user's row and nothing else; every failure leaves the store unchanged |
| ChangePassword.ChangeTakesEffect | app/api/auth/change-password/route.ts:43-59 | after a change, the new password verifies for the session user and a different old one no longer does; the reset token and every other user are untouched |
| ResetPassword.GenerateResetToken | app/api/auth/reset-password/route.ts:17-19 | the token is 64 lower-case hex characters and decodes back to the 32 random bytes |
| ResetPassword.ResetFields | app/api/auth/reset-password/route.ts:11-14 | the body passes exactly when `token` is a non-empty string and `newPassword` a string of at least 6 characters, and those are the values returned |
| ResetPassword.RequestToken | app/api/auth/reset-password/route.ts:27-69 | a schema failure gives 400; an unknown user gets the generic answer and nothing changes; a known user's row gets a fresh token valid for one hour, and the token is shown only in development; no password changes |
| ResetPassword.ConsumeToken | app/api/auth/reset-password/route.ts:70-113 | a schema failure gives 400; a token nobody holds live gives 400 and nothing changes; otherwise the first live holder gets the new password and cleared reset fields |
| ResetPassword.Dispatch | app/api/auth/reset-password/route.ts:22-119 | an unparseable body gives 500; a `username` key selects the request mode even when `token` is present, a `token` key alone selects completion, anything else gives 400 `Invalid request`; the reset-requested answer only ever comes from request mode |
| ResetPassword.Post | app/api/auth/reset-password/route.ts:22-126 | an unparseable body gives 500; a body with `username` is a reset request, one with only `token` is a completion, anything else gives 400 `Invalid request`; failures leave the store unchanged and validity is kept |
| ResetPassword.SingleUse | app/api/auth/reset-password/route.ts:83-108 | a token held by one user works once; presenting it again, at any time, is refused and changes nothing |
| ResetPassword.NoHolderLeft | app/api/auth/reset-password/route.ts:101-108 | once the token is cleared from its only holder, no user holds it live |
| ResetPassword.IssuedTokenHeldByRequester | app/api/auth/reset-password/route.ts:50-60 | after a request, the requesting user alone holds the new token, expiring one hour later, and every other user is unchanged |
| ResetPassword.RequestThenReset | app/api/auth/reset-password/route.ts:50-108 | a requested token presented before the hour is out sets the requester's new password and clears the token, leaving every other user unchanged |
| ResetPassword.ConsumeOnlyHolder | app/api/auth/reset-password/route.ts:83-108 | with a single live holder, completion resets exactly that user |
| ResetPassword.ExpiredTokenRefused | app/api/auth/reset-password/route.ts:51-52 | a requested token presented an hour or more later is refused with 400 and nothing changes |
| ResetPassword.RequestRevealsExistence | app/api/auth/reset-password/route.ts:42-69 | in production, the answer to a reset request differs between a store where the user exists and one where it does not |
| ResetPassword.PostNoLeak | app/api/auth/reset-password/route.ts:42-48 | the corrected route writes the same store and gives the same answer as the original, except that a reset-requested answer carries the generic message; the development token is still returned |
| ResetPassword.NoLeakIndistinguishable | app/api/auth/reset-password/route.ts:43 | outside development, the corrected reset request answers the same whatever users exist |
| InitAdminScript.DevelopmentEnvironment | scripts/init-admin.ts:9-14 | the script may run exactly when `NODE_ENV` is unset or is `development` |
| InitAdminScript.Test | scripts/init-admin.ts:23-26 | a character-class test holds exactly when some character of the password is in the class |
| InitAdminScript.CredentialsError | scripts/init-admin.ts:16-40 | a missing user comes first, then a missing password; with both present, the password is accepted exactly when it has at least 12 characters, including an upper-case letter, a lower-case letter, a digit and a symbol, and any other password gives the weak-password error |
| InitAdminScript.Execute | scripts/init-admin.ts:42-65 | the gates run in order (environment, credentials, existing user); the user is created exactly when all pass and the name is new; otherwise the store is unchanged |
| InitAdminScript.ExecuteIdempotent | scripts/init-admin.ts:46-51 | a second run writes nothing; a refusal repeats unchanged, otherwise the second run reports that the user already exists |
| Projects.NormalizeImageUrl | app/api/projects/route.ts:28-35 | the image URL is kept, trimmed, exactly when it is a string with a non-white-space character; otherwise it becomes null |
| Projects.Validate | app/api/projects/route.ts:5-13 | a body passes exactly when title, category and description are non-empty strings and the normalised image URL is null or under `/images/` |
| Projects.Post | app/api/projects/route.ts:24-66 | an unparseable body gives 500 and an invalid one gives 400 with nothing written; a valid one gives 201 and appends exactly one project with trimmed text, the normalised image URL, a fresh id and the current time; every stored image URL stays under `/images/` |
| Projects.BlankTitleStoredEmpty | app/api/projects/route.ts:37-51 | validation sees the untrimmed title, so a title of one space is accepted and stored empty |
| Projects.Insert | app/api/projects/route.ts:17 | inserting into a newest-first list keeps it newest-first and adds exactly the one project |
| Projects.SortNewestFirst | app/api/projects/route.ts:17 | the result is newest-first and a permutation of the input |
| Projects.Get | app/api/projects/route.ts:15-22 | the answer lists every stored project exactly once, newest first |
| Projects.CreatedProjectListed | app/api/projects/route.ts:15-54 | a project the create route stores appears in the next listing, next to every project listed before |
| Upload.Sanitize | app/api/upload/route.ts:41 | the name keeps its length; every letter, digit, `.` and `-` stays in place and every other character becomes `_` |
| Upload.SanitizeSafe | app/api/upload/route.ts:41 | a sanitised name contains no `/`, no `\` and no white space |
| Upload.SanitizeIdempotent | app/api/upload/route.ts:41 | sanitising an already sanitised name changes nothing |
| Upload.FileName | app/api/upload/route.ts:40-43 | the stored name is a timestamp that reads back as `now`, an underscore, then the sanitised original name; it contains no path separator or white space, so the file lands in the image directory |
| Upload.Post | app/api/upload/route.ts:6-61 | the checks run in order: unreadable form (500), missing file (400), type outside the five image types (400), size above 5 MB (400), failed write (500); success writes `<time>_<sanitised name>` and returns its path under `/images/` |
| Upload.UploadedUrlAccepted | app/api/upload/route.ts:51-53 | every returned image path passes the project form's normalisation unchanged and its `/images/` rule |
| SocialLinks.Lookup | app/api/auth/social-links/route.ts:21-23 | a link reads as empty exactly when its setting is absent or empty, and otherwise as the stored value |
| SocialLinks.Get | app/api/auth/social-links/route.ts:8-34 | the answer is 200 with the three links; each reads as empty exactly when its setting is absent or empty, and otherwise as the stored value |
| SocialLinks.LinkValue | app/api/auth/social-links/route.ts:53-55 | a missing or falsy field is stored as the empty string and a truthy string as itself; any other truthy value cannot be stored |
| SocialLinks.SaveFrom | app/api/auth/social-links/route.ts:58-64 | the writes run in order and stop at the first one rejected: the writes before it stay and none from it on happens; all of them go through exactly when every value can be stored, and no other setting changes |
| SocialLinks.Post | app/api/auth/social-links/route.ts:37-77 | without authentication the answer is 401 and nothing changes; an unparseable body gives 500; success happens exactly when every link can be stored, and then all three are written; a link that cannot be stored gives 500, with the writes before it kept and none after it made; only the three link settings ever change |
| SocialLinks.PostThenGet | app/api/auth/social-links/route.ts:53-64 | after a successful update, the next read returns the links just written |
| SocialLinks.PartialUpdate | app/api/auth/social-links/route.ts:58-75 | a non-string Instagram link fails the request with 500, yet the Facebook link written before it stays written |
| ContactForm.Validate | app/api/contact/route.ts:5-9 | a body passes exactly when the name has at least 2 characters, the email passes the email check, and the message has at least 5 characters |
| ContactForm.Post | app/api/contact/route.ts:11-23 | an unparseable body gives 500 and an invalid one gives 400 with nothing written; a valid one is appended verbatim with a fresh id and the current time, and returned |
| ContactForm.TwoPostsTwoRows | app/api/contact/route.ts:18-19 | two accepted messages leave two rows with distinct, increasing ids |

## Left out

- Database failures, and the 500 answers they cause, are not modelled.
  - The model's 500 answers are only for a body that is not JSON, a form that cannot be read, a failed image write, and a link value the database rejects.
  - The `details` and `stack` fields of error bodies are left out.
  - The `details` list of zod issues is left out too.
- Request bodies that are JSON but not an object (`null`, a number, an array) are left out. Each handler touches such a body differently.
- `Number(session.value)` is modelled on decimal-digit strings only. The forms JavaScript also accepts are out: white space, a sign, a fraction, an exponent, hex. The empty string also reads as 0, which names no user either.
- Strings are sequences of Unicode code points, not UTF-16 code units.
  - Zod's `min` lengths are counted in code points.
  - Sanitising replaces an astral character with one `_`; JavaScript writes two.
- bcrypt's salt and cost are not modelled. Neither is its 72-byte truncation: two passwords equal in their first 72 bytes both verify against the same hash.
- Prisma's `findFirst` is assumed to return the lowest id. The query gives no `orderBy`, so the database may return another match.
- The order of projects created at the same millisecond is left open. `Projects.SortNewestFirst` fixes one order, whereas the database may use any.
- `setHours(getHours() + 1)` is modelled as exactly one hour. A daylight-saving change makes it differ.
- The 404 answers of `me` and change-password need the user row to disappear between two queries of one request. Each request here runs against a single store, so they cannot happen: `Me.NeverNotFound` shows it for `me`, and an ensures of `ChangePassword.Post` for change-password.
- `verifyAuth`, which guards the social-links update, is not part of this model. It enters as a boolean.
- Zod's email check is not modelled. It is a parameter of `ContactForm.Post`.
- Randomness and the clock are parameters: `crypto.randomBytes(32)`, `crypto.randomUUID()`, `Date.now()` and `new Date()`.
- Filesystem effects are reduced to the name of the file written and a success flag: `mkdir`, `writeFile` and the byte contents.
- Console logging and the script's process exit are not modelled.
- Outside this model:
  - the Facebook posting route;
  - the `init` and `init-admin` routes;
  - the project detail, update and delete route;
  - logout;
  - every page and component.
- Prisma schema defaults are assumed: `createdAt` defaults to the current time, ids autoincrement from 1, and `Setting.value` is a string.

## Findings

| source | as written | input that shows it | evidently intended | confidence | as-written member | corrected member |
|---|---|---|---|---|---|---|
| app/api/auth/reset-password/route.ts:42-69 | a reset request for an existing user answers "Token de réinitialisation généré"; an unknown user gets "Si cet utilisateur existe, un email de réinitialisation sera envoyé." This holds in production too. | `{"username": "admin"}` with `NODE_ENV=production`: the answer on a store holding `admin` differs from the answer on an empty store | the comment at line 43 says the route does not reveal whether the user exists: both cases give the same answer outside development | high (not executed) | ResetPassword.RequestRevealsExistence | ResetPassword.NoLeakIndistinguishable |

=== FILE: auth.dfy ===
/** lib/auth.ts: session cookie issue and check, the bootstrap admin, and the
    password-reset token helpers. The cookie jar, the clock, `NODE_ENV` and
    `crypto.randomUUID()` are parameters. */
module Auth {
  import opened Wrappers
  import opened Text
  import opened Password
  import opened Db
  import opened Http
  import SessionCookie

  // ---------------------------------------------------------------------
  // session cookie
  // ---------------------------------------------------------------------

  /** `createSessionCookie(userId)`: the id in the clear, valid for a week,
      Secure only in production. */
  function CreateSessionCookie(userId: nat, env: NodeEnv): (header: string)
    ensures header == "admin-session=" + Show(userId) + "; Path=/; HttpOnly; SameSite=Lax; Max-Age=604800"
                      + (if IsProduction(env) then "; Secure" else "")
    ensures SessionCookie.Parse(header) == Some(SessionCookie.Cookie(Show(userId), 604800, IsProduction(env)))
  {
    var c := SessionCookie.Cookie(Show(userId), SessionCookie.OneWeek, IsProduction(env));
    SessionCookie.ShowOneWeek();
    SessionCookie.ParseRender(c);
    SessionCookie.RenderWeek(Show(userId), IsProduction(env));
    SessionCookie.Render(c)
  }

  /** `destroySessionCookie()`: an empty value that expires at once. */
  function DestroySessionCookie(): (header: string)
    // written as two literals so that the verifier can unfold the text
    ensures header == "admin-session=" + "; Path=/; HttpOnly; SameSite=Lax; Max-Age=0"
    ensures SessionCookie.Parse(header) == Some(SessionCookie.Cookie("", 0, false))
  {
    var expired := SessionCookie.Cookie("", 0, false);
    SessionCookie.ParseRender(expired);
    SessionCookie.RenderExpired();
    SessionCookie.Render(expired)
  }

  /** `getSession()`, given the value of the `admin-session` cookie the
      request carries: the id it names, provided it is a number and a user
      with that id still exists. */
  function GetSession(db: Store, cookie: Option<string>): (r: Option<nat>)
    ensures r.Some? <==>
              && cookie.Some?
              && ParseDecimal(cookie.value).Some?
              && HasUser(db, ParseDecimal(cookie.value).value)
    ensures r.Some? ==> ParseDecimal(cookie.value) == r
  {
    match cookie
    case None => None
    case Some(value) =>
      match ParseDecimal(value)
      case None => None
      case Some(id) => if FindFirst(db.users, IdIs(id)).Some? then Some(id) else None
  }

  /** The handlers' `if (!userId)` test: `null` and `0` are both falsy. */
  predicate SignedIn(session: Option<nat>) {
    session.Some? && session.value != 0
  }

  /** On a valid store ids start at 1, so the falsy-zero case never arises:
      a session is signed in exactly when `getSession` found its user. */
  lemma SignedInIffSession(db: Store, cookie: Option<string>)
    requires Valid(db)
    ensures SignedIn(GetSession(db, cookie)) <==> GetSession(db, cookie).Some?
  {
  }

  /** The cookie issued for a user authenticates as that user for as long as
      the user exists, and not after. */
  lemma SessionRoundTrip(db: Store, userId: nat, env: NodeEnv)
    ensures SessionCookie.Parse(CreateSessionCookie(userId, env)).Some?
    ensures var value := SessionCookie.Parse(CreateSessionCookie(userId, env)).value.value;
            GetSession(db, Some(value)) == (if HasUser(db, userId) then Some(userId) else None)
  {
    ParseShow(userId);
  }

  // ---------------------------------------------------------------------
  // bootstrap admin
  // ---------------------------------------------------------------------

  /** `initAdminUser()`: on an empty user table, creates `admin` with password
      `admin`; otherwise does nothing. */
  function InitAdminUser(db: Store): (r: Store)
    ensures |db.users| == 0 ==> |r.users| == 1
    ensures |db.users| == 0 ==> r.users[0].username == "admin" && Verify("admin", r.users[0].passwordHash)
    ensures |db.users| == 0 ==> r.users[0].resetToken.None? && r.users[0].resetTokenExpiry.None?
    ensures |db.users| != 0 ==> r == db
    ensures r.projects == db.projects && r.contacts == db.contacts && r.settings == db.settings
    ensures Valid(db) ==> Valid(r)
  {
    if |db.users| == 0 then CreateUser(db, "admin", Hash("admin")) else db
  }

  /** Running the bootstrap twice is the same as running it once. */
  lemma InitAdminIdempotent(db: Store)
    ensures InitAdminUser(InitAdminUser(db)) == InitAdminUser(db)
  {
  }

  // ---------------------------------------------------------------------
  // reset tokens
  // ---------------------------------------------------------------------

  /** Lifetime of a token from `createPasswordResetToken`: 15 minutes. */
  const LibTokenLifetime: nat := 1000 * 60 * 15

  datatype IssuedToken = IssuedToken(db: Store, token: string, expiry: Time)

  /** Every user row with the given reset token and expiry. */
  function SetResetTokenAll(users: seq<User>, token: string, expiry: Time): (r: seq<User>)
    ensures |r| == |users|
    ensures forall i | 0 <= i < |users| ::
              r[i] == users[i].(resetToken := Some(token), resetTokenExpiry := Some(expiry))
  {
    if users == [] then []
    else [users[0].(resetToken := Some(token), resetTokenExpiry := Some(expiry))]
         + SetResetTokenAll(users[1..], token, expiry)
  }

  /** `createPasswordResetToken()`, given the value `crypto.randomUUID()`
      returns: `updateMany` without a filter, so every user receives the same
      token, valid for 15 minutes. */
  function CreatePasswordResetToken(db: Store, uuid: string, now: Time): (r: IssuedToken)
    ensures r.token == uuid && r.expiry == now + 900000
    ensures |r.db.users| == |db.users|
    ensures forall i | 0 <= i < |db.users| ::
              && r.db.users[i].resetToken == Some(uuid)
              && r.db.users[i].resetTokenExpiry == Some(now + 900000)
              && r.db.users[i] == db.users[i].(resetToken := r.db.users[i].resetToken,
                                               resetTokenExpiry := r.db.users[i].resetTokenExpiry)
    ensures r.db == db.(users := r.db.users)
    ensures Valid(db) ==> Valid(r.db)
  {
    var expiry := now + LibTokenLifetime;
    IssuedToken(db.(users := SetResetTokenAll(db.users, uuid, expiry)), uuid, expiry)
  }

  /** `validateResetToken(token)`: the first user holding `token` with an
      expiry strictly after `now`. */
  function ValidateResetToken(db: Store, token: string, now: Time): (r: Option<User>)
    ensures r.Some? ==> r.value in db.users
    ensures r.Some? ==> r.value.resetToken == Some(token)
                        && r.value.resetTokenExpiry.Some? && r.value.resetTokenExpiry.value > now
    ensures r.None? <==> forall i | 0 <= i < |db.users| ::
                           !(db.users[i].resetToken == Some(token)
                             && db.users[i].resetTokenExpiry.Some?
                             && db.users[i].resetTokenExpiry.value > now)
  {
    match FindFirst(db.users, LiveResetToken(token, now))
    case None => None
    case Some(i) => Some(db.users[i])
  }

  /** A token from `createPasswordResetToken` unlocks the first user in the
      table until it expires, whichever user it was meant for. */
  lemma IssuedTokenUnlocksFirstUser(db: Store, uuid: string, now: Time, later: Time)
    requires |db.users| > 0
    requires later < now + 900000
    ensures var issued := CreatePasswordResetToken(db, uuid, now);
            ValidateResetToken(issued.db, uuid, later) == Some(issued.db.users[0])
  {
  }

  /** `updatePassword(userId, newPassword)`: new hash, reset fields cleared.
      Prisma's `update` throws when no row has the id: `None`. */
  function UpdatePassword(db: Store, userId: nat, newPassword: string): (r: Option<Store>)
    ensures r.Some? <==> HasUser(db, userId)
    ensures r.Some? ==> r.value == db.(users := r.value.users) && |r.value.users| == |db.users|
    ensures r.Some? ==> forall j | 0 <= j < |db.users| && db.users[j].id != userId ::
                          r.value.users[j] == db.users[j]
    ensures r.Some? && Valid(db) ==>
              forall j | 0 <= j < |db.users| && db.users[j].id == userId ::
                r.value.users[j] == db.users[j].(passwordHash := Hash(newPassword),
                                                 resetToken := None, resetTokenExpiry := None)
    ensures r.Some? && Valid(db) ==> Valid(r.value)
  {
    match FindFirst(db.users, IdIs(userId))
    case None => None
    case Some(i) =>
      var u := db.users[i];
      Some(UpdateUser(db, i, u.(passwordHash := Hash(newPassword), resetToken := None, resetTokenExpiry := None)))
  }
}

=== FILE: change_password.dfy ===
/** app/api/auth/change-password/route.ts: `POST` checks the session, then the
    body, then the current password, and replaces the password hash. */
module ChangePassword {
  import opened Wrappers
  import opened Password
  import opened Db
  import opened Http
  import opened Request
  import Auth
  import Me

  const WrongCurrent: string := "Mot de passe actuel incorrect"
  const Changed: string := "Mot de passe modifi\U{00E9} avec succ\U{00E8}s"

  /** `ChangePasswordSchema`: a non-empty `currentPassword` and a
      `newPassword` of at least 6 characters. */
  function Passwords(fields: map<string, Json>): (r: Option<(string, string)>)
    ensures r.Some? <==> StringField(fields, "currentPassword", 1).Some? && StringField(fields, "newPassword", 6).Some?
    ensures r.Some? ==>
              && Field(fields, "currentPassword") == Some(JString(r.value.0)) && |r.value.0| >= 1
              && Field(fields, "newPassword") == Some(JString(r.value.1)) && |r.value.1| >= 6
  {
    match (StringField(fields, "currentPassword", 1), StringField(fields, "newPassword", 6))
    case (Some(current), Some(next)) => Some((current, next))
    case _ => None
  }

  /** `POST`, given the request's `admin-session` cookie value. */
  function Post(db: Store, cookie: Option<string>, body: Payload): (s: Step)
    ensures s.response.setCookie.None?
    ensures s.response.status in {OkStatus, BadRequest, Unauthorized, NotFound, ServerError}
    // 1. no session: 401 whatever the body
    ensures !Auth.SignedIn(Auth.GetSession(db, cookie)) ==>
              s == Step(Reply(Unauthorized, Failure(Me.NotAuthenticated)), db)
    // 2. then the body is read and checked
    ensures Auth.SignedIn(Auth.GetSession(db, cookie)) && body.Unparseable? ==>
              s == Step(Reply(ServerError, Failure(ServerErrorMessage)), db)
    ensures Auth.SignedIn(Auth.GetSession(db, cookie)) && body.Object? && Passwords(body.fields).None? ==>
              s == Step(Reply(BadRequest, Failure(InvalidData)), db)
    // 3. a wrong current password changes nothing
    ensures s.response.status != OkStatus ==> s.db == db
    ensures s.response.status == BadRequest && s.response.body != Failure(InvalidData) ==>
              s.response.body == Failure(WrongCurrent)
    // 4. success: the session user knew the password, and only its hash changes
    ensures s.response.status == OkStatus ==>
              && Auth.SignedIn(Auth.GetSession(db, cookie))
              && body.Object? && Passwords(body.fields).Some?
              && s.response.body == Done(Changed)
              && var (current, next) := Passwords(body.fields).value;
                 exists i | 0 <= i < |db.users| ::
                   && db.users[i].id == Auth.GetSession(db, cookie).value
                   && Verify(current, db.users[i].passwordHash)
                   && s.db == db.(users := db.users[i := db.users[i].(passwordHash := Hash(next))])
    // on a valid store, a signed-in well-formed request succeeds exactly when
    // the current password is right, and otherwise gets the 400 for it
    ensures Valid(db) && Auth.SignedIn(Auth.GetSession(db, cookie)) && body.Object? && Passwords(body.fields).Some? ==>
              var (current, next) := Passwords(body.fields).value;
              (s.response.status == OkStatus <==>
                 exists i | 0 <= i < |db.users| ::
                   db.users[i].id == Auth.GetSession(db, cookie).value && Verify(current, db.users[i].passwordHash))
    ensures Valid(db) && Auth.SignedIn(Auth.GetSession(db, cookie)) && body.Object? && Passwords(body.fields).Some?
            && s.response.status != OkStatus ==>
              s == Step(Reply(BadRequest, Failure(WrongCurrent)), db)
    // the session user exists, so the 404 branch is never taken
    ensures s.response.status != NotFound
    ensures Valid(db) ==> Valid(s.db)
  {
    var session := Auth.GetSession(db, cookie);
    if !Auth.SignedIn(session) then
      Step(Reply(Unauthorized, Failure(Me.NotAuthenticated)), db)
    else
      match body
      case Unparseable => Step(Reply(ServerError, Failure(ServerErrorMessage)), db)
      case Object(fields) =>
        match Passwords(fields)
        case None => Step(Reply(BadRequest, Failure(InvalidData)), db)
        case Some((current, next)) =>
          match FindFirst(db.users, IdIs(session.value))
          case None => Step(Reply(NotFound, Failure(Me.UserNotFound)), db)
          case Some(i) =>
            var user := db.users[i];
            assert Valid(db) ==> forall j | 0 <= j < |db.users| && db.users[j].id == session.value :: j == i by {
              if Valid(db) {
                forall j | 0 <= j < |db.users| && db.users[j].id == session.value
                  ensures j == i
                {
                  UniqueMatch(db, IdIs(session.value), i, j);
                }
              }
            }
            if !Verify(current, user.passwordHash) then
              Step(Reply(BadRequest, Failure(WrongCurrent)), db)
            else
              Step(Reply(OkStatus, Done(Changed)), UpdateUser(db, i, user.(passwordHash := Hash(next))))
  }

  /** After a change on a valid store, the new password verifies for the
      session user and the old one no longer does (unless they are equal);
      the user's reset token and every other user stay as they were. */
  lemma ChangeTakesEffect(db: Store, cookie: Option<string>, body: Payload)
    requires Valid(db)
    requires Post(db, cookie, body).response.status == OkStatus
    ensures var (current, next) := Passwords(body.fields).value;
            var id := Auth.GetSession(db, cookie).value;
            var after := Post(db, cookie, body).db;
            && |after.users| == |db.users|
            && forall j | 0 <= j < |db.users| ::
                 if db.users[j].id == id then
                   && Verify(next, after.users[j].passwordHash)
                   && (current != next ==> !Verify(current, after.users[j].passwordHash))
                   && after.users[j].resetToken == db.users[j].resetToken
                   && after.users[j].resetTokenExpiry == db.users[j].resetTokenExpiry
                 else after.users[j] == db.users[j]
  {
    var (current, next) := Passwords(body.fields).value;
    var id := Auth.GetSession(db, cookie).value;
    var i :| 0 <= i < |db.users| && db.users[i].id == id
             && Post(db, cookie, body).db == db.(users := db.users[i := db.users[i].(passwordHash := Hash(next))]);
    forall j | 0 <= j < |db.users| && db.users[j].id == id
      ensures j == i
    {
      UniqueMatch(db, IdIs(id), i, j);
    }
  }
}

=== FILE: contact.dfy ===
/** app/api/contact/route.ts: the public contact form. A body that passes
    `ContactSchema` is stored as it is, with the next id and the current
    time. */
module ContactForm {
  import opened Wrappers
  import opened Db
  import opened Http
  import opened Request

  /** A message `ContactSchema` accepts. */
  datatype Message = Message(name: string, email: string, message: string)

  /** `ContactSchema.safeParse(data)`: a name of at least 2 characters, a
      string zod's `email()` check accepts (`isEmail`, not modelled here) and
      a message of at least 5 characters. */
  function Validate(fields: map<string, Json>, isEmail: string -> bool): (r: Option<Message>)
    ensures r.Some? <==>
              && StringField(fields, "name", 2).Some?
              && StringField(fields, "email", 0).Some? && isEmail(StringField(fields, "email", 0).value)
              && StringField(fields, "message", 5).Some?
    ensures r.Some? ==>
              && Field(fields, "name") == Some(JString(r.value.name)) && |r.value.name| >= 2
              && Field(fields, "email") == Some(JString(r.value.email)) && isEmail(r.value.email)
              && Field(fields, "message") == Some(JString(r.value.message)) && |r.value.message| >= 5
  {
    match (StringField(fields, "name", 2), StringField(fields, "email", 0), StringField(fields, "message", 5))
    case (Some(n), Some(e), Some(m)) => if isEmail(e) then Some(Message(n, e, m)) else None
    case _ => None
  }

  /** `POST` at time `now`. */
  function Post(db: Store, body: Payload, now: Time, isEmail: string -> bool): (s: Step)
    ensures s.response.setCookie.None?
    ensures body.Unparseable? ==> s == Step(Reply(ServerError, Failure(ServerErrorMessage)), db)
    ensures body.Object? && Validate(body.fields, isEmail).None? ==>
              s == Step(Reply(BadRequest, Failure(InvalidData)), db)
    ensures s.response.status == OkStatus <==> body.Object? && Validate(body.fields, isEmail).Some?
    // the fields are stored verbatim, nothing else changes
    ensures s.response.status == OkStatus ==>
              var m := Validate(body.fields, isEmail).value;
              var c := Contact(db.nextContactId, m.name, m.email, m.message, now);
              && s.response.body == ContactStored(c)
              && s.db == CreateContact(db, m.name, m.email, m.message, now)
              && s.db.contacts == db.contacts + [c]
    ensures s.response.status != OkStatus ==> s.db == db
    ensures Valid(db) ==> Valid(s.db)
  {
    match body
    case Unparseable => Step(Reply(ServerError, Failure(ServerErrorMessage)), db)
    case Object(fields) =>
      match Validate(fields, isEmail)
      case None => Step(Reply(BadRequest, Failure(InvalidData)), db)
      case Some(m) =>
        var c := Contact(db.nextContactId, m.name, m.email, m.message, now);
        Step(Reply(OkStatus, ContactStored(c)), CreateContact(db, m.name, m.email, m.message, now))
  }

  /** Every accepted message is appended: its id is fresh, so two accepted
      posts leave two distinct rows. */
  lemma {:induction false} TwoPostsTwoRows(db: Store, b1: Payload, b2: Payload, t1: Time, t2: Time, isEmail: string -> bool)
    requires Valid(db)
    requires Post(db, b1, t1, isEmail).response.status == OkStatus
    requires Post(Post(db, b1, t1, isEmail).db, b2, t2, isEmail).response.status == OkStatus
    ensures var after := Post(Post(db, b1, t1, isEmail).db, b2, t2, isEmail).db;
            && |after.contacts| == |db.contacts| + 2
            && after.contacts[|db.contacts|].id < after.contacts[|db.contacts| + 1].id
  {
    var mid := Post(db, b1, t1, isEmail).db;
    assert Valid(mid);
    assert |mid.contacts| == |db.contacts| + 1;
  }
}

=== FILE: cookie.dfy ===
/** The session cookie of lib/auth.ts as a Set-Cookie header (section 4.1.1 of
    RFC 6265): `admin-session=<value>` followed by the Path, HttpOnly,
    SameSite and Max-Age attributes (sections 4.1.2.4, 4.1.2.6 and 4.1.2.2) and,
    in production, Secure (section 4.1.2.5). */
module SessionCookie {
  import opened Wrappers
  import opened Text

  /** The cookie name and the `=` that follows it. */
  const Prefix: string := "admin-session="

  /** `60 * 60 * 24 * 7` seconds. */
  const OneWeek: nat := 60 * 60 * 24 * 7

  const Attributes: string := "; Path=/; HttpOnly; SameSite=Lax; Max-Age="
  const SecureFlag: string := "; Secure"

  /** What one Set-Cookie header for the session carries. */
  datatype Cookie = Cookie(value: string, maxAge: nat, secure: bool)

  /** A cookie value may not contain the `;` that ends it. */
  predicate ValidValue(v: string) {
    forall i | 0 <= i < |v| :: v[i] != ';'
  }

  /** The header text of a cookie. */
  function Render(c: Cookie): string {
    Prefix + c.value + Attributes + Show(c.maxAge) + (if c.secure then SecureFlag else "")
  }

  /** Position of the first `;`, or the length when there is none. */
  function IndexOfSemicolon(s: string): (k: nat)
    ensures k <= |s|
    ensures forall i | 0 <= i < k :: s[i] != ';'
    ensures k < |s| ==> s[k] == ';'
  {
    if s == [] || s[0] == ';' then 0 else 1 + IndexOfSemicolon(s[1..])
  }

  /** Reads a session Set-Cookie header back: the value runs up to the first
      `;` (section 5.2 of RFC 6265), then the attribute list must follow. */
  function Parse(header: string): Option<Cookie> {
    if !(Prefix <= header) then None
    else
      var rest := header[|Prefix|..];
      var k := IndexOfSemicolon(rest);
      match ParseAttributes(rest[k..])
      case None => None
      case Some((maxAge, secure)) => Some(Cookie(rest[..k], maxAge, secure))
  }

  /** The fixed attribute list with a decimal Max-Age and an optional
      trailing Secure. */
  function ParseAttributes(attrs: string): Option<(nat, bool)> {
    if !(Attributes <= attrs) then None
    else
      var tail := attrs[|Attributes|..];
      var secure := |tail| >= |SecureFlag| && tail[|tail| - |SecureFlag|..] == SecureFlag;
      var digits := if secure then tail[..|tail| - |SecureFlag|] else tail;
      match ParseDecimal(digits)
      case None => None
      case Some(n) => Some((n, secure))
  }

  lemma SplitAtSemicolon(v: string, attrs: string)
    requires ValidValue(v)
    requires attrs != [] && attrs[0] == ';'
    ensures IndexOfSemicolon(v + attrs) == |v|
  {
    var s := v + attrs;
    var k := IndexOfSemicolon(s);
    assert s[|v|] == ';';
  }

  lemma ParseRenderedAttributes(n: nat, secure: bool)
    ensures ParseAttributes(Attributes + Show(n) + (if secure then SecureFlag else "")) == Some((n, secure))
  {
    var flag := if secure then SecureFlag else "";
    var attrs := Attributes + Show(n) + flag;
    var digits := Show(n);
    assert Attributes <= attrs;
    var tail := attrs[|Attributes|..];
    assert tail == digits + flag;
    if secure {
      assert tail[|tail| - |SecureFlag|..] == SecureFlag;
      assert tail[..|tail| - |SecureFlag|] == digits;
    } else {
      assert tail == digits;
      if |tail| >= |SecureFlag| {
        assert IsDigit(tail[|tail| - 1]);
        assert |SecureFlag| == 8 && SecureFlag[7] == 'e';
        assert tail[|tail| - |SecureFlag|..][|SecureFlag| - 1] == tail[|tail| - 1];
        assert tail[|tail| - |SecureFlag|..] != SecureFlag;
      }
    }
    ParseShow(n);
  }

  /** A header split into the prefix, a `;`-free value and an attribute list
      starting with `;` reads back as that value with those attributes. */
  lemma {:induction false} ParseSplit(v: string, attrs: string)
    requires ValidValue(v)
    requires attrs != [] && attrs[0] == ';'
    requires ParseAttributes(attrs).Some?
    ensures Parse(Prefix + v + attrs)
            == Some(Cookie(v, ParseAttributes(attrs).value.0, ParseAttributes(attrs).value.1))
  {
    var rest := v + attrs;
    Prefixed(rest);
    assert Prefix + v + attrs == Prefix + rest;
    SplitAtSemicolon(v, attrs);
    assert rest[..|v|] == v;
    assert rest[|v|..] == attrs;
  }

  /** The header prefix is a prefix of itself followed by anything. */
  lemma Prefixed(rest: string)
    ensures Prefix <= Prefix + rest && (Prefix + rest)[|Prefix|..] == rest
  {
  }

  /** Every cookie whose value has no `;` survives rendering and parsing. */
  lemma {:induction false} ParseRender(c: Cookie)
    requires ValidValue(c.value)
    ensures Parse(Render(c)) == Some(c)
  {
    var attrs := Attributes + Show(c.maxAge) + (if c.secure then SecureFlag else "");
    assert Render(c) == Prefix + c.value + attrs;
    assert attrs[0] == Attributes[0] == ';';
    ParseRenderedAttributes(c.maxAge, c.secure);
    ParseSplit(c.value, attrs);
  }

  /** The session header of lib/auth.ts written out: a week-long cookie,
      with `; Secure` appended when `secure` holds. */
  lemma {:induction false} RenderWeek(v: string, secure: bool)
    ensures Render(Cookie(v, OneWeek, secure))
            == "admin-session=" + v + "; Path=/; HttpOnly; SameSite=Lax; Max-Age=604800"
               + (if secure then "; Secure" else "")
  {
    ShowOneWeek();
    assert Attributes + "604800" == "; Path=/; HttpOnly; SameSite=Lax; Max-Age=604800";
    assert Prefix + v + Attributes + "604800" == Prefix + v + (Attributes + "604800");
  }

  /** The expired header written out. */
  lemma {:induction false} RenderExpired()
    ensures Render(Cookie("", 0, false)) == "admin-session=" + "; Path=/; HttpOnly; SameSite=Lax; Max-Age=0"
  {
    assert Show(0) == "0";
    assert Attributes + "0" == "; Path=/; HttpOnly; SameSite=Lax; Max-Age=0";
    assert Prefix + "" + Attributes + "0" == Prefix + (Attributes + "0");
  }

  /** `String(60 * 60 * 24 * 7)`. */
  lemma ShowOneWeek()
    ensures Show(OneWeek) == "604800"
  {
    assert Show(6) == "6";
    assert Show(60) == "60";
    assert Show(604) == "604";
    assert Show(6048) == "6048";
    assert Show(60480) == "60480";
    assert Show(604800) == "604800";
  }
}

=== FILE: db.dfy ===
/** The persistent state the handlers read and write: the four Prisma tables
    (User, Project, Contact, Setting) as immutable values, and the two query
    shapes the handlers use on users (`findUnique` and `findFirst`). */
module Db {
  import opened Wrappers
  import opened Password

  /** Milliseconds since the epoch, as `Date.now()` gives them. */
  type Time = nat

  datatype User = User(
    id: nat,
    username: string,
    passwordHash: Digest,
    resetToken: Option<string>,
    resetTokenExpiry: Option<Time>)

  datatype Project = Project(
    id: nat,
    title: string,
    category: string,
    description: string,
    imageUrl: Option<string>,
    createdAt: Time)

  datatype Contact = Contact(id: nat, name: string, email: string, message: string, createdAt: Time)

  /** Rows of each table in insertion order, which is also the order of their
      autoincremented ids; `next*` is the id the next insert receives. */
  datatype Store = Store(
    users: seq<User>,
    nextUserId: nat,
    projects: seq<Project>,
    nextProjectId: nat,
    contacts: seq<Contact>,
    nextContactId: nat,
    settings: map<string, string>)

  /** A fresh database: no rows, autoincrement counters at 1. */
  const Empty: Store := Store([], 1, [], 1, [], 1, map[])

  // ---------------------------------------------------------------------
  // invariant
  // ---------------------------------------------------------------------

  /** Ids are positive, fresh and increasing; usernames are unique. */
  ghost predicate UsersValid(users: seq<User>, next: nat) {
    && next >= 1
    && (forall i | 0 <= i < |users| :: 1 <= users[i].id < next)
    && (forall i, j | 0 <= i < j < |users| :: users[i].id < users[j].id)
    && (forall i, j | 0 <= i < j < |users| :: users[i].username != users[j].username)
  }

  ghost predicate ProjectsValid(projects: seq<Project>, next: nat) {
    && next >= 1
    && (forall i | 0 <= i < |projects| :: 1 <= projects[i].id < next)
    && (forall i, j | 0 <= i < j < |projects| :: projects[i].id < projects[j].id)
  }

  ghost predicate ContactsValid(contacts: seq<Contact>, next: nat) {
    && next >= 1
    && (forall i | 0 <= i < |contacts| :: 1 <= contacts[i].id < next)
    && (forall i, j | 0 <= i < j < |contacts| :: contacts[i].id < contacts[j].id)
  }

  ghost predicate Valid(db: Store) {
    && UsersValid(db.users, db.nextUserId)
    && ProjectsValid(db.projects, db.nextProjectId)
    && ContactsValid(db.contacts, db.nextContactId)
  }

  lemma EmptyValid()
    ensures Valid(Empty)
  {
  }

  // ---------------------------------------------------------------------
  // queries
  // ---------------------------------------------------------------------

  /** The `where` clauses the handlers put on user queries. */
  datatype Where =
    | IdIs(id: nat)
    | UsernameIs(username: string)
    | LiveResetToken(token: string, now: Time)  // resetToken = token and resetTokenExpiry > now

  predicate Matches(u: User, w: Where) {
    match w
    case IdIs(id) => u.id == id
    case UsernameIs(name) => u.username == name
    case LiveResetToken(token, now) =>
      u.resetToken == Some(token) && u.resetTokenExpiry.Some? && u.resetTokenExpiry.value > now
  }

  /** `findFirst` / `findUnique`: the position of the first matching row. */
  function FindFirst(users: seq<User>, w: Where): (r: Option<nat>)
    ensures r.Some? ==> r.value < |users| && Matches(users[r.value], w)
    ensures r.Some? ==> forall j | 0 <= j < r.value :: !Matches(users[j], w)
    ensures r.None? ==> forall j | 0 <= j < |users| :: !Matches(users[j], w)
  {
    if |users| == 0 then None
    else if Matches(users[0], w) then Some(0)
    else
      match FindFirst(users[1..], w)
      case None => None
      case Some(k) => Some(k + 1)
  }

  /** Some row with this id exists. */
  ghost predicate HasUser(db: Store, id: nat) {
    exists i | 0 <= i < |db.users| :: db.users[i].id == id
  }

  /** Some row with this username exists. */
  ghost predicate HasUsername(db: Store, name: string) {
    exists i | 0 <= i < |db.users| :: db.users[i].username == name
  }

  /** On a valid store a lookup by id or by username can match one row only,
      so `findFirst` and `findUnique` agree. */
  lemma UniqueMatch(db: Store, w: Where, i: nat, j: nat)
    requires Valid(db)
    requires w.IdIs? || w.UsernameIs?
    requires i < |db.users| && j < |db.users|
    requires Matches(db.users[i], w) && Matches(db.users[j], w)
    ensures i == j
  {
  }

  // ---------------------------------------------------------------------
  // writes
  // ---------------------------------------------------------------------

  /** `prisma.user.create`: a new row with the next id and no reset token. */
  function CreateUser(db: Store, username: string, hash: Digest): (r: Store)
    ensures |r.users| == |db.users| + 1 && r.users[..|db.users|] == db.users
    ensures r.users[|db.users|] == User(db.nextUserId, username, hash, None, None)
    ensures r == db.(users := r.users, nextUserId := db.nextUserId + 1)
    ensures Valid(db) && !HasUsername(db, username) ==> Valid(r)
  {
    db.(users := db.users + [User(db.nextUserId, username, hash, None, None)],
        nextUserId := db.nextUserId + 1)
  }

  /** `prisma.user.update` on the row at position `i`, which keeps its id and
      username: only that row changes. */
  function UpdateUser(db: Store, i: nat, u: User): (r: Store)
    requires i < |db.users|
    requires u.id == db.users[i].id && u.username == db.users[i].username
    ensures |r.users| == |db.users| && r.users[i] == u
    ensures forall j | 0 <= j < |db.users| && j != i :: r.users[j] == db.users[j]
    ensures r == db.(users := r.users)
    ensures Valid(db) ==> Valid(r)
  {
    db.(users := db.users[i := u])
  }

  /** `prisma.project.create`: the next id, `createdAt` defaulting to `now`. */
  function CreateProject(db: Store, title: string, category: string, description: string,
                         imageUrl: Option<string>, now: Time): (r: Store)
    ensures r.projects == db.projects + [Project(db.nextProjectId, title, category, description, imageUrl, now)]
    ensures r == db.(projects := r.projects, nextProjectId := db.nextProjectId + 1)
    ensures Valid(db) ==> Valid(r)
  {
    db.(projects := db.projects + [Project(db.nextProjectId, title, category, description, imageUrl, now)],
        nextProjectId := db.nextProjectId + 1)
  }

  /** `prisma.contact.create`: the next id, `createdAt` defaulting to `now`. */
  function CreateContact(db: Store, name: string, email: string, message: string, now: Time): (r: Store)
    ensures r.contacts == db.contacts + [Contact(db.nextContactId, name, email, message, now)]
    ensures r == db.(contacts := r.contacts, nextContactId := db.nextContactId + 1)
    ensures Valid(db) ==> Valid(r)
  {
    db.(contacts := db.contacts + [Contact(db.nextContactId, name, email, message, now)],
        nextContactId := db.nextContactId + 1)
  }

  /** `prisma.setting.upsert` keyed by `key`: that key now maps to `value`,
      every other key keeps its value. */
  function Upsert(db: Store, key: string, value: string): (r: Store)
    ensures key in r.settings && r.settings[key] == value
    ensures forall k | k != key :: (k in r.settings <==> k in db.settings)
    ensures forall k | k != key && k in db.settings :: r.settings[k] == db.settings[k]
    ensures r.users == db.users && r.projects == db.projects && r.contacts == db.contacts
    ensures Valid(db) ==> Valid(r)
  {
    db.(settings := db.settings[key := value])
  }
}

=== FILE: http.dfy ===
/** What a route handler returns: a status, a JSON body and an optional
    Set-Cookie header, together with the store after the request. */
module Http {
  import opened Wrappers
  import opened Db

  /** `process.env.NODE_ENV`, `None` when unset. */
  type NodeEnv = Option<string>

  predicate IsProduction(env: NodeEnv) {
    env == Some("production")
  }

  predicate IsDevelopment(env: NodeEnv) {
    env == Some("development")
  }

  const OkStatus: nat := 200
  const CreatedStatus: nat := 201
  const BadRequest: nat := 400
  const Unauthorized: nat := 401
  const NotFound: nat := 404
  const ServerError: nat := 500

  const InvalidData: string := "Invalid data"
  const ServerErrorMessage: string := "Server error"

  /** The part of a user a response may show. */
  datatype PublicUser = PublicUser(id: nat, username: string)

  /** The JSON bodies the handlers send. Validation details (zod issues) and
      exception messages are not modelled. */
  datatype Body =
    | Failure(error: string)                                  // { error }
    | LoggedIn(user: PublicUser)                              // { success: true, user }
    | CurrentUser(user: PublicUser)                           // { user }
    | Done(message: string)                                   // { success: true, message }
    | ResetRequested(message: string, token: Option<string>)  // { success: true, message, token? }
    | ProjectList(projects: seq<Project>)                     // [ ...projects ]
    | ProjectCreated(project: Project)                        // { success: true, project }
    | ImageStored(imageUrl: string)                           // { success: true, imageUrl }
    | SocialLinks(facebook: string, instagram: string, linkedin: string)
    | ContactStored(contact: Contact)                         // { success: true, contact }

  datatype Response = Response(status: nat, body: Body, setCookie: Option<string>)

  /** `NextResponse.json(body, { status })`, no header. */
  function Reply(status: nat, body: Body): Response {
    Response(status, body, None)
  }

  /** A handler's response and the store it leaves behind. */
  datatype Step = Step(response: Response, db: Store)
}

=== FILE: init_admin_script.dfy ===
/** scripts/init-admin.ts: a development-only command that creates the admin
    account from `ADMIN_USER` / `ADMIN_PASSWORD` unless it already exists.
    The environment variables are parameters; the console output and the
    process exit code are folded into `Outcome`. */
module InitAdminScript {
  import opened Wrappers
  import opened Text
  import opened Password
  import opened Db
  import opened Http

  const MinPasswordLength: nat := 12

  datatype ScriptError = NotDevelopment | MissingUser | MissingPassword | WeakPassword

  /** How a run ends: an error (exit code 1, nothing written), the user was
      already there, or it was created. */
  datatype Outcome = Refused(error: ScriptError) | AlreadyExists | Created

  datatype Run = Run(outcome: Outcome, db: Store)

  // ---------------------------------------------------------------------
  // environment gate
  // ---------------------------------------------------------------------

  /** `ensureDevelopmentEnvironment`: `NODE_ENV ?? 'development'` must be
      `development`; an unset variable passes, any other value (even "")
      fails. */
  predicate DevelopmentEnvironment(env: NodeEnv): (ok: bool)
    ensures ok <==> env.None? || env.value == "development"
  {
    env.GetOr("development") == "development"
  }

  // ---------------------------------------------------------------------
  // password policy
  // ---------------------------------------------------------------------

  /** The four regular expressions of the policy: `[A-Z]`, `[a-z]`, `[0-9]`
      and `[^A-Za-z0-9]`. */
  datatype CharClass = Upper | Lower | Digit | Symbol

  predicate InClass(c: char, cls: CharClass) {
    match cls
    case Upper => 'A' <= c <= 'Z'
    case Lower => 'a' <= c <= 'z'
    case Digit => '0' <= c <= '9'
    case Symbol => !('A' <= c <= 'Z' || 'a' <= c <= 'z' || '0' <= c <= '9')
  }

  /** `/[class]/.test(s)`: a left-to-right search for one matching character. */
  function Test(cls: CharClass, s: string): (found: bool)
    ensures found <==> exists i | 0 <= i < |s| :: InClass(s[i], cls)
  {
    if s == [] then false
    else if InClass(s[0], cls) then true
    else
      var found := Test(cls, s[1..]);
      assert forall i | 1 <= i < |s| :: s[i] == s[1..][i - 1];
      found
  }

  /** The policy stated directly: at least 12 characters, among them an
      upper-case letter, a lower-case letter, a digit and a character that is
      none of these. */
  ghost predicate StrongPassword(p: string) {
    && |p| >= 12
    && (exists i | 0 <= i < |p| :: 'A' <= p[i] <= 'Z')
    && (exists i | 0 <= i < |p| :: 'a' <= p[i] <= 'z')
    && (exists i | 0 <= i < |p| :: '0' <= p[i] <= '9')
    && (exists i | 0 <= i < |p| :: !('A' <= p[i] <= 'Z' || 'a' <= p[i] <= 'z' || '0' <= p[i] <= '9'))
  }

  /** `ensureCredentials`: the first failing check, or `None`. `undefined`
      and the empty string are both missing. */
  function CredentialsError(username: Option<string>, password: Option<string>): (e: Option<ScriptError>)
    ensures username.None? || username.value == "" ==> e == Some(MissingUser)
    ensures username.Some? && username.value != "" && (password.None? || password.value == "") ==>
              e == Some(MissingPassword)
    ensures username.Some? && username.value != "" && password.Some? && password.value != "" ==>
              (e.None? <==> StrongPassword(password.value))
    ensures username.Some? && username.value != "" && password.Some? && password.value != "" &&
              !StrongPassword(password.value) ==>
              e == Some(WeakPassword)
    ensures e.Some? ==> e.value != NotDevelopment
    ensures e == Some(WeakPassword) ==> username.Some? && username.value != "" && password.Some? && password.value != ""
  {
    if username.None? || username.value == "" then Some(MissingUser)
    else if password.None? || password.value == "" then Some(MissingPassword)
    else
      var p := password.value;
      if |p| < MinPasswordLength || !Test(Upper, p) || !Test(Lower, p) || !Test(Digit, p) || !Test(Symbol, p)
      then Some(WeakPassword)
      else None
  }

  // ---------------------------------------------------------------------
  // main
  // ---------------------------------------------------------------------

  /** `main()`: environment, then credentials, then the store. */
  function Execute(db: Store, env: NodeEnv, username: Option<string>, password: Option<string>): (r: Run)
    // the gates, in order; a refusal writes nothing
    ensures !DevelopmentEnvironment(env) ==> r == Run(Refused(NotDevelopment), db)
    ensures DevelopmentEnvironment(env) && CredentialsError(username, password).Some? ==>
              r == Run(Refused(CredentialsError(username, password).value), db)
    // create-if-absent
    ensures r.outcome == AlreadyExists <==>
              DevelopmentEnvironment(env) && CredentialsError(username, password).None?
              && HasUsername(db, username.value)
    ensures r.outcome == Created <==>
              DevelopmentEnvironment(env) && CredentialsError(username, password).None?
              && !HasUsername(db, username.value)
    ensures r.outcome != Created ==> r.db == db
    ensures r.outcome == Created ==>
              && StrongPassword(password.value)
              && !HasUsername(db, username.value)
              && |r.db.users| == |db.users| + 1 && r.db.users[..|db.users|] == db.users
              && r.db.users[|db.users|].username == username.value
              && Verify(password.value, r.db.users[|db.users|].passwordHash)
              && r.db.users[|db.users|].resetToken.None?
              && r.db == db.(users := r.db.users, nextUserId := r.db.nextUserId)
    ensures Valid(db) ==> Valid(r.db)
  {
    if !DevelopmentEnvironment(env) then Run(Refused(NotDevelopment), db)
    else
      match CredentialsError(username, password)
      case Some(e) => Run(Refused(e), db)
      case None =>
        if FindFirst(db.users, UsernameIs(username.value)).Some? then Run(AlreadyExists, db)
        else Run(Created, CreateUser(db, username.value, Hash(password.value)))
  }

  /** A second run changes nothing: after the first has created the user or
      found it, the second finds it. */
  lemma ExecuteIdempotent(db: Store, env: NodeEnv, username: Option<string>, password: Option<string>)
    ensures var first := Execute(db, env, username, password);
            var second := Execute(first.db, env, username, password);
            && second.db == first.db
            && (first.outcome.Refused? ==> second == first)
            && (!first.outcome.Refused? ==> second.outcome == AlreadyExists)
  {
    var first := Execute(db, env, username, password);
    if first.outcome == Created {
      assert first.db.users[|db.users|].username == username.value;
    }
  }
}

=== FILE: login.dfy ===
/** app/api/auth/login/route.ts: `POST` checks the body, looks the user up by
    name, verifies the password and issues the session cookie. */
module Login {
  import opened Wrappers
  import opened Password
  import opened Db
  import opened Http
  import opened Request
  import Auth
  import SessionCookie

  const BadCredentials: string := "Identifiants invalides"

  /** `LoginSchema`: a non-empty `username` and a non-empty `password`. */
  function Credentials(fields: map<string, Json>): (r: Option<(string, string)>)
    ensures r.Some? <==> StringField(fields, "username", 1).Some? && StringField(fields, "password", 1).Some?
    ensures r.Some? ==>
              && Field(fields, "username") == Some(JString(r.value.0)) && |r.value.0| >= 1
              && Field(fields, "password") == Some(JString(r.value.1)) && |r.value.1| >= 1
  {
    match (StringField(fields, "username", 1), StringField(fields, "password", 1))
    case (Some(u), Some(p)) => Some((u, p))
    case _ => None
  }

  /** Some user has this name and this password. */
  ghost predicate Accepts(db: Store, username: string, password: string) {
    exists i | 0 <= i < |db.users| ::
      db.users[i].username == username && Verify(password, db.users[i].passwordHash)
  }

  function Post(db: Store, body: Payload, env: NodeEnv): (s: Step)
    // login never writes
    ensures s.db == db
    ensures s.response.status in {OkStatus, BadRequest, Unauthorized, ServerError}
    ensures body.Unparseable? ==> s.response == Reply(ServerError, Failure(ServerErrorMessage))
    // schema first, before any lookup
    ensures body.Object? && Credentials(body.fields).None? ==>
              s.response == Reply(BadRequest, Failure(InvalidData))
    // unknown user and wrong password give the same answer
    ensures body.Object? && Credentials(body.fields).Some? && s.response.status != OkStatus ==>
              s.response == Reply(Unauthorized, Failure(BadCredentials))
    ensures body.Object? && Credentials(body.fields).Some? && !HasUsername(db, Credentials(body.fields).value.0) ==>
              s.response == Reply(Unauthorized, Failure(BadCredentials))
    // success: exactly the public view of a user whose password matched, and its cookie
    ensures s.response.status == OkStatus ==>
              && body.Object? && Credentials(body.fields).Some?
              && var (username, password) := Credentials(body.fields).value;
                 exists i | 0 <= i < |db.users| ::
                   && db.users[i].username == username
                   && Verify(password, db.users[i].passwordHash)
                   && s.response.body == LoggedIn(PublicUser(db.users[i].id, username))
                   && s.response.setCookie == Some(Auth.CreateSessionCookie(db.users[i].id, env))
    ensures s.response.status != OkStatus ==> s.response.setCookie.None?
    // on a valid store, the right credentials always get in
    ensures Valid(db) && body.Object? && Credentials(body.fields).Some? ==>
              (s.response.status == OkStatus <==>
                 Accepts(db, Credentials(body.fields).value.0, Credentials(body.fields).value.1))
  {
    match body
    case Unparseable => Step(Reply(ServerError, Failure(ServerErrorMessage)), db)
    case Object(fields) =>
      match Credentials(fields)
      case None => Step(Reply(BadRequest, Failure(InvalidData)), db)
      case Some((username, password)) =>
        match FindFirst(db.users, UsernameIs(username))
        case None => Step(Reply(Unauthorized, Failure(BadCredentials)), db)
        case Some(i) =>
          var user := db.users[i];
          if !Verify(password, user.passwordHash) then
            Step(Reply(Unauthorized, Failure(BadCredentials)), db)
          else
            Step(Response(OkStatus, LoggedIn(PublicUser(user.id, user.username)),
                          Some(Auth.CreateSessionCookie(user.id, env))), db)
  }

  /** The body of a login form. */
  function LoginBody(username: string, password: string): Payload {
    Object(map["username" := JString(username), "password" := JString(password)])
  }

  /** On a valid store, the right name and password get in, and the cookie
      the login sets authenticates that user on the next request. */
  lemma {:induction false} LoginCookieAuthenticates(db: Store, username: string, password: string, env: NodeEnv)
    requires Valid(db)
    requires username != "" && password != ""
    requires Accepts(db, username, password)
    ensures var r := Post(db, LoginBody(username, password), env).response;
            && r.status == OkStatus && r.setCookie.Some? && r.body.LoggedIn?
            && r.body.user.username == username
            && SessionCookie.Parse(r.setCookie.value).Some?
            && Auth.GetSession(db, Some(SessionCookie.Parse(r.setCookie.value).value.value))
               == Some(r.body.user.id)
  {
    var fields := LoginBody(username, password).fields;
    assert Field(fields, "username") == Some(JString(username));
    assert Field(fields, "password") == Some(JString(password));
    assert Credentials(fields) == Some((username, password));
    var r := Post(db, LoginBody(username, password), env).response;
    Auth.SessionRoundTrip(db, r.body.user.id, env);
  }
}

=== FILE: me.dfy ===
/** app/api/auth/me/route.ts: `GET` turns the session into the public view
    of the signed-in user. */
module Me {
  import opened Wrappers
  import opened Db
  import opened Http
  import opened Request
  import Auth
  import Login
  import SessionCookie

  const NotAuthenticated: string := "Non authentifi\U{00E9}"
  const UserNotFound: string := "Utilisateur non trouv\U{00E9}"

  /** `GET`, given the request's `admin-session` cookie value. */
  function Get(db: Store, cookie: Option<string>): (s: Step)
    // read-only
    ensures s.db == db
    ensures s.response.setCookie.None?
    ensures s.response.status in {OkStatus, Unauthorized, NotFound}
    ensures s.response.status == Unauthorized <==> !Auth.SignedIn(Auth.GetSession(db, cookie))
    ensures s.response.status == Unauthorized ==> s.response.body == Failure(NotAuthenticated)
    // success shows only id and username of the session's user
    ensures s.response.status == OkStatus ==>
              && s.response.body.CurrentUser?
              && Auth.GetSession(db, cookie) == Some(s.response.body.user.id)
              && exists i | 0 <= i < |db.users| ::
                   db.users[i].id == s.response.body.user.id
                   && db.users[i].username == s.response.body.user.username
  {
    var session := Auth.GetSession(db, cookie);
    if !Auth.SignedIn(session) then
      Step(Reply(Unauthorized, Failure(NotAuthenticated)), db)
    else
      match FindFirst(db.users, IdIs(session.value))
      case None => Step(Reply(NotFound, Failure(UserNotFound)), db)
      case Some(i) =>
        Step(Reply(OkStatus, CurrentUser(PublicUser(db.users[i].id, db.users[i].username))), db)
  }

  /** The 404 branch needs the user to vanish between `getSession` and the
      lookup; a request handled on one store never reaches it. */
  lemma NeverNotFound(db: Store, cookie: Option<string>)
    ensures Get(db, cookie).response.status != NotFound
  {
  }

  /** On a valid store, after logging in with the right name and password,
      `me` with the cookie just set returns the user the login returned. */
  lemma {:induction false} MeAfterLogin(db: Store, username: string, password: string, env: NodeEnv)
    requires Valid(db)
    requires username != "" && password != ""
    requires Login.Accepts(db, username, password)
    ensures var r := Login.Post(db, Login.LoginBody(username, password), env).response;
            var value := SessionCookie.Parse(r.setCookie.value).value.value;
            Get(db, Some(value)).response == Reply(OkStatus, CurrentUser(r.body.user))
  {
    var r := Login.Post(db, Login.LoginBody(username, password), env).response;
    Login.LoginCookieAuthenticates(db, username, password, env);
    var value := SessionCookie.Parse(r.setCookie.value).value.value;
    var i :| 0 <= i < |db.users| && db.users[i].username == username
             && r.body == LoggedIn(PublicUser(db.users[i].id, username));
    var k := FindFirst(db.users, IdIs(r.body.user.id)).value;
    UniqueMatch(db, IdIs(r.body.user.id), i, k);
  }
}

=== FILE: password.dfy ===
/** Password hashing (lib/auth.ts `hashPassword`, `verifyPassword`). bcrypt is
    abstracted to a digest that remembers the password it was computed from;
    salt, cost factor and the library's input truncation are not modelled. */
module Password {

  datatype Digest = Bcrypt(secret: string)

  function Hash(password: string): (d: Digest)
    ensures Verify(password, d)
  {
    Bcrypt(password)
  }

  /** `bcrypt.compare`: true exactly for the password the digest was made from. */
  predicate Verify(password: string, hash: Digest) {
    hash.secret == password
  }
}

=== FILE: projects.dfy ===
/** app/api/projects/route.ts: `GET` lists projects newest first; `POST`
    normalises `imageUrl`, validates the body against `ProjectSchema`, trims
    the text fields and inserts one project. */
module Projects {
  import opened Wrappers
  import opened Text
  import opened Db
  import opened Http
  import opened Request

  /** The path every uploaded image lives under (`/^\/images\//`). */
  const ImagePrefix: string := "/images/"

  // ---------------------------------------------------------------------
  // POST
  // ---------------------------------------------------------------------

  /** The `imageUrl` normalisation: a string with something other than
      whitespace becomes its trim; anything else (missing, null, a number,
      an empty or blank string) becomes null. */
  function NormalizeImageUrl(v: Option<Json>): (r: Option<string>)
    ensures r.Some? <==> v.Some? && v.value.JString? && !AllWhitespace(v.value.s)
    ensures r.Some? ==> r.value != [] && !IsWhitespace(r.value[0]) && !IsWhitespace(r.value[|r.value| - 1])
    ensures r.Some? ==> r.value == Trim(v.value.s)
  {
    match v
    case Some(JString(s)) => if s != "" && Trim(s) != "" then Some(Trim(s)) else None
    case _ => None
  }

  /** The `imageUrl` rule of `ProjectSchema`: null, or a path under the image
      directory. */
  predicate ImageUrlAccepted(url: Option<string>) {
    url.None? || ImagePrefix <= url.value
  }

  /** Every stored project points at an uploaded image, or at none. */
  predicate ImagesUploaded(ps: seq<Project>) {
    forall i | 0 <= i < |ps| :: ImageUrlAccepted(ps[i].imageUrl)
  }

  /** A body `ProjectSchema` accepts (after normalisation), untrimmed. */
  datatype Draft = Draft(title: string, category: string, description: string, imageUrl: Option<string>)

  /** `ProjectSchema.safeParse(normalizedData)`. */
  function Validate(fields: map<string, Json>): (r: Option<Draft>)
    ensures r.Some? <==>
              && StringField(fields, "title", 1).Some?
              && StringField(fields, "category", 1).Some?
              && StringField(fields, "description", 1).Some?
              && ImageUrlAccepted(NormalizeImageUrl(Field(fields, "imageUrl")))
    ensures r.Some? ==>
              && Field(fields, "title") == Some(JString(r.value.title)) && |r.value.title| >= 1
              && Field(fields, "category") == Some(JString(r.value.category)) && |r.value.category| >= 1
              && Field(fields, "description") == Some(JString(r.value.description)) && |r.value.description| >= 1
              && r.value.imageUrl == NormalizeImageUrl(Field(fields, "imageUrl"))
  {
    var image := NormalizeImageUrl(Field(fields, "imageUrl"));
    match (StringField(fields, "title", 1), StringField(fields, "category", 1), StringField(fields, "description", 1))
    case (Some(t), Some(c), Some(d)) => if ImageUrlAccepted(image) then Some(Draft(t, c, d, image)) else None
    case _ => None
  }

  /** `POST` at time `now`; the new row gets the next id and `createdAt = now`. */
  function Post(db: Store, body: Payload, now: Time): (s: Step)
    ensures s.response.setCookie.None?
    ensures body.Unparseable? ==> s == Step(Reply(ServerError, Failure(ServerErrorMessage)), db)
    ensures body.Object? && Validate(body.fields).None? ==> s == Step(Reply(BadRequest, Failure(InvalidData)), db)
    ensures s.response.status == CreatedStatus <==> body.Object? && Validate(body.fields).Some?
    // exactly one project appended, with trimmed text; nothing else changes
    ensures s.response.status == CreatedStatus ==>
              var d := Validate(body.fields).value;
              var p := Project(db.nextProjectId, Trim(d.title), Trim(d.category), Trim(d.description), d.imageUrl, now);
              && s.response.body == ProjectCreated(p)
              && s.db == CreateProject(db, p.title, p.category, p.description, p.imageUrl, now)
    ensures s.response.status != CreatedStatus ==> s.db == db
    ensures ImagesUploaded(db.projects) ==> ImagesUploaded(s.db.projects)
    ensures Valid(db) ==> Valid(s.db)
  {
    match body
    case Unparseable => Step(Reply(ServerError, Failure(ServerErrorMessage)), db)
    case Object(fields) =>
      match Validate(fields)
      case None => Step(Reply(BadRequest, Failure(InvalidData)), db)
      case Some(d) =>
        var p := Project(db.nextProjectId, Trim(d.title), Trim(d.category), Trim(d.description), d.imageUrl, now);
        Step(Reply(CreatedStatus, ProjectCreated(p)),
             CreateProject(db, p.title, p.category, p.description, p.imageUrl, now))
  }

  /** Validation looks at the untrimmed text, so a blank title passes and is
      stored empty. */
  lemma BlankTitleStoredEmpty(db: Store, now: Time)
    ensures var body := Object(map["title" := JString(" "), "category" := JString("VRD"),
                                   "description" := JString("d")]);
            var s := Post(db, body, now);
            s.response.status == CreatedStatus && s.response.body.project.title == ""
  {
    var fields := map["title" := JString(" "), "category" := JString("VRD"), "description" := JString("d")];
    assert StringField(fields, "title", 1) == Some(" ");
    assert StringField(fields, "category", 1) == Some("VRD");
    assert StringField(fields, "description", 1) == Some("d");
    assert Field(fields, "imageUrl") == None;
    assert AllWhitespace(" ");
  }

  // ---------------------------------------------------------------------
  // GET
  // ---------------------------------------------------------------------

  predicate NewestFirst(ps: seq<Project>) {
    forall i, j | 0 <= i < j < |ps| :: ps[i].createdAt >= ps[j].createdAt
  }

  /** Insert `p` into a newest-first list, before the first row that is not
      newer. */
  function Insert(p: Project, ps: seq<Project>): (r: seq<Project>)
    requires NewestFirst(ps)
    ensures NewestFirst(r)
    ensures multiset(r) == multiset(ps) + multiset{p}
    ensures |r| == |ps| + 1 && (r[0] == p || (ps != [] && r[0] == ps[0]))
  {
    if ps == [] || p.createdAt >= ps[0].createdAt then [p] + ps
    else
      var rest := Insert(p, ps[1..]);
      InsertBehind(p, ps, rest);
      [ps[0]] + rest
  }

  /** The step of `Insert` that keeps the head: a row older than the head
      goes into the tail, and the head stays in front. */
  lemma InsertBehind(p: Project, ps: seq<Project>, rest: seq<Project>)
    requires NewestFirst(ps) && ps != [] && p.createdAt < ps[0].createdAt
    requires NewestFirst(rest) && multiset(rest) == multiset(ps[1..]) + multiset{p}
    ensures NewestFirst([ps[0]] + rest)
    ensures multiset([ps[0]] + rest) == multiset(ps) + multiset{p}
  {
    assert ps == [ps[0]] + ps[1..];
    forall j | 0 <= j < |rest| ensures rest[j].createdAt <= ps[0].createdAt {
      assert rest[j] in multiset(rest);
      if rest[j] != p {
        var k :| 0 <= k < |ps[1..]| && ps[1..][k] == rest[j];
        assert ps[k + 1] == rest[j];
      }
    }
    ConsNewestFirst(ps[0], rest);
  }

  /** A row no older than every row of a newest-first list may go in front. */
  lemma ConsNewestFirst(x: Project, ps: seq<Project>)
    requires NewestFirst(ps)
    requires forall j | 0 <= j < |ps| :: ps[j].createdAt <= x.createdAt
    ensures NewestFirst([x] + ps)
  {
    var r := [x] + ps;
    forall i, j | 0 <= i < j < |r| ensures r[i].createdAt >= r[j].createdAt {
      assert r[j] == ps[j - 1];
      if i > 0 { assert r[i] == ps[i - 1]; }
    }
  }

  /** `orderBy: { createdAt: 'desc' }`: an insertion sort. Rows with equal
      timestamps may come in any order in the database; here they keep a
      fixed one. */
  function SortNewestFirst(ps: seq<Project>): (r: seq<Project>)
    ensures NewestFirst(r)
    ensures multiset(r) == multiset(ps)
  {
    if ps == [] then []
    else
      assert ps == [ps[0]] + ps[1..];
      Insert(ps[0], SortNewestFirst(ps[1..]))
  }

  /** `GET`: every project, each once, newest first; nothing is written. */
  function Get(db: Store): (r: Response)
    ensures r.status == OkStatus && r.setCookie.None? && r.body.ProjectList?
    ensures NewestFirst(r.body.projects)
    ensures multiset(r.body.projects) == multiset(db.projects)
  {
    Reply(OkStatus, ProjectList(SortNewestFirst(db.projects)))
  }

  /** A project the `POST` creates is in the next `GET`'s list, and every
      project listed before is still listed. */
  lemma {:induction false} CreatedProjectListed(db: Store, body: Payload, now: Time)
    requires body.Object? && Validate(body.fields).Some?
    ensures var s := Post(db, body, now);
            && s.response.body.project in Get(s.db).body.projects
            && forall p | p in Get(db).body.projects :: p in Get(s.db).body.projects
  {
    var s := Post(db, body, now);
    assert s.db.projects == db.projects + [s.response.body.project];
    var listed := Get(s.db).body.projects;
    assert multiset(listed) == multiset(db.projects) + multiset{s.response.body.project};
    assert s.response.body.project in multiset(listed);
    forall p | p in Get(db).body.projects
      ensures p in listed
    {
      assert p in multiset(Get(db).body.projects);
      assert p in multiset(listed);
    }
  }
}

=== FILE: request.dfy ===
/** Request bodies as the handlers see them after `await req.json()`, and the
    part of zod's `z.string().min(n)` the schemas use. */
module Request {
  import opened Wrappers

  /** A JSON value. Only the shape the handlers inspect is kept: arrays and
      nested objects are opaque, numbers are integers. */
  datatype Json = JNull | JBool(b: bool) | JNumber(n: int) | JString(s: string) | JArray | JObject

  /** JavaScript truthiness of a JSON value. */
  predicate Truthy(v: Json) {
    match v
    case JNull => false
    case JBool(b) => b
    case JNumber(n) => n != 0
    case JString(s) => s != ""
    case JArray => true
    case JObject => true
  }

  /** The result of `req.json()`: a body that does not parse makes it throw. */
  datatype Payload = Unparseable | Object(fields: map<string, Json>)

  /** The value at `key`, `None` standing for `undefined`. */
  function Field(fields: map<string, Json>, key: string): Option<Json> {
    if key in fields then Some(fields[key]) else None
  }

  /** zod's `z.string().min(min)` on one key: the string, or `None` when the
      key is missing, holds a non-string, or is shorter than `min`. */
  function StringField(fields: map<string, Json>, key: string, min: nat): (r: Option<string>)
    ensures r.Some? <==> exists s :: Field(fields, key) == Some(JString(s)) && |s| >= min
    ensures r.Some? ==> Field(fields, key) == Some(JString(r.value))
  {
    match Field(fields, key)
    case Some(JString(s)) => if |s| >= min then Some(s) else None
    case _ => None
  }
}

=== FILE: reset_password.dfy ===
/** app/api/auth/reset-password/route.ts: one `POST` with two modes. A body
    with `username` asks for a reset token; a body with `token` (and no
    `username`) consumes one and sets a new password. */
module ResetPassword {
  import opened Wrappers
  import opened Text
  import opened Password
  import opened Db
  import opened Http
  import opened Request
  import Auth

  /** `crypto.randomBytes(32)`: the randomness is a parameter. */
  type Entropy = s: seq<Byte> | |s| == 32 witness seq(32, i => 0)

  /** `setHours(getHours() + 1)`, daylight-saving jumps aside. */
  const OneHour: nat := 60 * 60 * 1000

  const InvalidRequest: string := "Invalid request"
  const InvalidToken: string := "Token invalide ou expir\U{00E9}"
  // written as two literals so that the verifier can unfold the text
  const UnknownUser: string := "Si cet utilisateur existe, " + "un email de r\U{00E9}initialisation sera envoy\U{00E9}."
  const TokenIssued: string := "Token de r\U{00E9}initialisation g\U{00E9}n\U{00E9}r\U{00E9}"
  const PasswordReset: string := "Mot de passe r\U{00E9}initialis\U{00E9} avec succ\U{00E8}s"

  /** `generateResetToken()`: 64 lower-case hex digits that encode the 32
      random bytes, so distinct randomness gives distinct tokens. */
  function GenerateResetToken(entropy: Entropy): (token: string)
    ensures |token| == 64
    ensures forall i | 0 <= i < |token| :: IsHexDigit(token[i])
    ensures FromHex(token) == Some(entropy)
  {
    FromHexToHex(entropy);
    ToHex(entropy)
  }

  /** `ResetPasswordSchema`: a non-empty `token` and a `newPassword` of at
      least 6 characters. */
  function ResetFields(fields: map<string, Json>): (r: Option<(string, string)>)
    ensures r.Some? <==> StringField(fields, "token", 1).Some? && StringField(fields, "newPassword", 6).Some?
    ensures r.Some? ==>
              && Field(fields, "token") == Some(JString(r.value.0)) && |r.value.0| >= 1
              && Field(fields, "newPassword") == Some(JString(r.value.1)) && |r.value.1| >= 6
  {
    match (StringField(fields, "token", 1), StringField(fields, "newPassword", 6))
    case (Some(token), Some(next)) => Some((token, next))
    case _ => None
  }

  /** Some user holds `token` with an expiry after `now`. */
  ghost predicate LiveToken(db: Store, token: string, now: Time) {
    exists i | 0 <= i < |db.users| :: Matches(db.users[i], LiveResetToken(token, now))
  }

  /** The request-token branch. `issuedMessage` is the message sent when the
      user exists; the route as written and the corrected route differ only
      there. */
  function RequestToken(db: Store, fields: map<string, Json>, now: Time, entropy: Entropy,
                        env: NodeEnv, issuedMessage: string): (s: Step)
    ensures s.response.status in {OkStatus, BadRequest} && s.response.setCookie.None?
    // no password changes here
    ensures |s.db.users| == |db.users|
    ensures forall i | 0 <= i < |db.users| :: s.db.users[i].passwordHash == db.users[i].passwordHash
    ensures StringField(fields, "username", 1).None? ==> s == Step(Reply(BadRequest, Failure(InvalidData)), db)
    // an unknown user gets a success-shaped answer and nothing changes
    ensures StringField(fields, "username", 1).Some? && !HasUsername(db, StringField(fields, "username", 1).value) ==>
              s == Step(Reply(OkStatus, ResetRequested(UnknownUser, None)), db)
    // a known user gets a fresh token valid for an hour; the token is shown only in development
    ensures StringField(fields, "username", 1).Some? && HasUsername(db, StringField(fields, "username", 1).value) ==>
              var name := StringField(fields, "username", 1).value;
              var token := GenerateResetToken(entropy);
              && s.response == Reply(OkStatus, ResetRequested(issuedMessage, if IsDevelopment(env) then Some(token) else None))
              && exists i | 0 <= i < |db.users| ::
                   && db.users[i].username == name
                   && s.db == db.(users := db.users[i := db.users[i].(resetToken := Some(token),
                                                                     resetTokenExpiry := Some(now + OneHour))])
    ensures Valid(db) ==> Valid(s.db)
  {
    match StringField(fields, "username", 1)
    case None => Step(Reply(BadRequest, Failure(InvalidData)), db)
    case Some(username) =>
      match FindFirst(db.users, UsernameIs(username))
      case None => Step(Reply(OkStatus, ResetRequested(UnknownUser, None)), db)
      case Some(i) =>
        var token := GenerateResetToken(entropy);
        var user := db.users[i].(resetToken := Some(token), resetTokenExpiry := Some(now + OneHour));
        Step(Reply(OkStatus, ResetRequested(issuedMessage, if IsDevelopment(env) then Some(token) else None)),
             UpdateUser(db, i, user))
  }

  /** The consume-token branch. */
  function ConsumeToken(db: Store, fields: map<string, Json>, now: Time): (s: Step)
    ensures s.response.setCookie.None?
    ensures ResetFields(fields).None? ==> s == Step(Reply(BadRequest, Failure(InvalidData)), db)
    // no live token: refused, nothing changes
    ensures ResetFields(fields).Some? && !LiveToken(db, ResetFields(fields).value.0, now) ==>
              s == Step(Reply(BadRequest, Failure(InvalidToken)), db)
    // a live token: the first user holding it gets the new hash and loses the token
    ensures ResetFields(fields).Some? && LiveToken(db, ResetFields(fields).value.0, now) ==>
              var (token, next) := ResetFields(fields).value;
              && s.response == Reply(OkStatus, Done(PasswordReset))
              && exists i | 0 <= i < |db.users| ::
                   && Matches(db.users[i], LiveResetToken(token, now))
                   && (forall j | 0 <= j < i :: !Matches(db.users[j], LiveResetToken(token, now)))
                   && (Valid(db) ==>
                         s.db == db.(users := db.users[i := db.users[i].(passwordHash := Hash(next),
                                                                         resetToken := None,
                                                                         resetTokenExpiry := None)]))
    ensures s.response.status != OkStatus ==> s.db == db
    ensures Valid(db) ==> Valid(s.db)
  {
    match ResetFields(fields)
    case None => Step(Reply(BadRequest, Failure(InvalidData)), db)
    case Some((token, next)) =>
      match Auth.ValidateResetToken(db, token, now)
      case None => Step(Reply(BadRequest, Failure(InvalidToken)), db)
      case Some(user) =>
        match Auth.UpdatePassword(db, user.id, next)
        case None => Step(Reply(ServerError, Failure(ServerErrorMessage)), db)
        case Some(db') => Step(Reply(OkStatus, Done(PasswordReset)), db')
  }

  /** Request mode: a key `username` is present, whatever else is. */
  predicate Requesting(body: Payload) {
    body.Object? && "username" in body.fields
  }

  /** Consume mode: `token` present and `username` absent. */
  predicate Consuming(body: Payload) {
    body.Object? && "username" !in body.fields && "token" in body.fields
  }

  /** The dispatcher shared by the route as written and the corrected one. */
  function Dispatch(db: Store, body: Payload, now: Time, entropy: Entropy, env: NodeEnv,
                    issuedMessage: string): (s: Step)
    ensures body.Unparseable? ==> s == Step(Reply(ServerError, Failure(ServerErrorMessage)), db)
    ensures Requesting(body) ==> s == RequestToken(db, body.fields, now, entropy, env, issuedMessage)
    ensures Consuming(body) ==> s == ConsumeToken(db, body.fields, now)
    ensures body.Object? && !Requesting(body) && !Consuming(body) ==>
              s == Step(Reply(BadRequest, Failure(InvalidRequest)), db)
    // the known-user message shows up in request mode only
    ensures s.response.body.ResetRequested? ==> Requesting(body)
  {
    match body
    case Unparseable => Step(Reply(ServerError, Failure(ServerErrorMessage)), db)
    case Object(fields) =>
      if "username" in fields then RequestToken(db, fields, now, entropy, env, issuedMessage)
      else if "token" in fields then ConsumeToken(db, fields, now)
      else Step(Reply(BadRequest, Failure(InvalidRequest)), db)
  }

  /** The route as written. */
  function Post(db: Store, body: Payload, now: Time, entropy: Entropy, env: NodeEnv): (s: Step)
    ensures body.Unparseable? ==> s == Step(Reply(ServerError, Failure(ServerErrorMessage)), db)
    // `username` wins, even when `token` is there too
    ensures Requesting(body) ==> s == RequestToken(db, body.fields, now, entropy, env, TokenIssued)
    ensures Consuming(body) ==> s == ConsumeToken(db, body.fields, now)
    ensures body.Object? && !Requesting(body) && !Consuming(body) ==>
              s == Step(Reply(BadRequest, Failure(InvalidRequest)), db)
    ensures s.response.status != OkStatus ==> s.db == db
    ensures Valid(db) ==> Valid(s.db)
  {
    Dispatch(db, body, now, entropy, env, TokenIssued)
  }

  // ---------------------------------------------------------------------
  // token lifecycle
  // ---------------------------------------------------------------------

  function RequestBody(username: string): Payload {
    Object(map["username" := JString(username)])
  }

  function ConsumeBody(token: string, next: string): Payload {
    Object(map["token" := JString(token), "newPassword" := JString(next)])
  }

  /** The body built for a reset passes the schema with its own fields. */
  lemma ConsumeBodyFields(token: string, next: string)
    requires token != [] && |next| >= 6
    ensures ResetFields(ConsumeBody(token, next).fields) == Some((token, next))
  {
    var fields := ConsumeBody(token, next).fields;
    assert Field(fields, "token") == Some(JString(token));
    assert Field(fields, "newPassword") == Some(JString(next));
  }

  /** A token held by one user only is consumed once: using it a second time,
      at any time, is refused and changes nothing. */
  lemma SingleUse(db: Store, body: Payload, now: Time, later: Time, entropy: Entropy, env: NodeEnv)
    requires Valid(db)
    requires Consuming(body) && ResetFields(body.fields).Some?
    requires LiveToken(db, ResetFields(body.fields).value.0, now)
    requires forall i, j | 0 <= i < |db.users| && 0 <= j < |db.users| ::
               (db.users[i].resetToken == Some(ResetFields(body.fields).value.0)
                && db.users[j].resetToken == Some(ResetFields(body.fields).value.0)) ==> i == j
    ensures var first := Post(db, body, now, entropy, env);
            && first.response == Reply(OkStatus, Done(PasswordReset))
            && Post(first.db, body, later, entropy, env) == Step(Reply(BadRequest, Failure(InvalidToken)), first.db)
  {
    var (token, next) := ResetFields(body.fields).value;
    var first := ConsumeToken(db, body.fields, now);
    var i :| 0 <= i < |db.users| && Matches(db.users[i], LiveResetToken(token, now))
             && first.db == db.(users := db.users[i := db.users[i].(passwordHash := Hash(next),
                                                                 resetToken := None,
                                                                 resetTokenExpiry := None)]);
    NoHolderLeft(db, first.db, i, token, later);
  }

  /** Clearing the token of its only holder leaves no one holding it. */
  lemma NoHolderLeft(db: Store, after: Store, i: nat, token: string, later: Time)
    requires i < |db.users| && db.users[i].resetToken == Some(token)
    requires forall j | 0 <= j < |db.users| && j != i :: db.users[j].resetToken != Some(token)
    requires |after.users| == |db.users| && after.users[i].resetToken.None?
    requires forall j | 0 <= j < |db.users| && j != i :: after.users[j] == db.users[j]
    ensures !LiveToken(after, token, later)
  {
    forall j | 0 <= j < |after.users|
      ensures !Matches(after.users[j], LiveResetToken(token, later))
    {
      if j != i {
        assert after.users[j] == db.users[j];
      }
    }
  }

  /** After a request for a known user on a valid store, with a token held
      by no one before, the user is the only one holding it, until
      `now + OneHour`. */
  lemma IssuedTokenHeldByRequester(db: Store, name: string, now: Time, entropy: Entropy, env: NodeEnv)
    requires Valid(db)
    requires HasUsername(db, name) && name != ""
    requires forall j | 0 <= j < |db.users| :: db.users[j].resetToken != Some(GenerateResetToken(entropy))
    ensures var issued := RequestToken(db, RequestBody(name).fields, now, entropy, env, TokenIssued).db;
            && |issued.users| == |db.users|
            && forall j | 0 <= j < |db.users| ::
                 if db.users[j].username == name then
                   issued.users[j] == db.users[j].(resetToken := Some(GenerateResetToken(entropy)),
                                                   resetTokenExpiry := Some(now + OneHour))
                 else issued.users[j] == db.users[j]
  {
    var fields := RequestBody(name).fields;
    assert StringField(fields, "username", 1) == Some(name);
    var token := GenerateResetToken(entropy);
    var issued := RequestToken(db, fields, now, entropy, env, TokenIssued);
    var i :| 0 <= i < |db.users| && db.users[i].username == name
             && issued.db == db.(users := db.users[i := db.users[i].(resetToken := Some(token),
                                                                   resetTokenExpiry := Some(now + OneHour))]);
    forall j | 0 <= j < |db.users| && db.users[j].username == name
      ensures j == i
    {
      UniqueMatch(db, UsernameIs(name), i, j);
    }
  }

  /** The whole flow on a valid store: a known user asks for a token, and
      presenting that token with a new password before the hour is out sets
      the password and clears the token. The token must be fresh, i.e. held
      by no one yet. */
  lemma RequestThenReset(db: Store, name: string, now: Time, entropy: Entropy, env: NodeEnv,
                         later: Time, next: string)
    requires Valid(db)
    requires HasUsername(db, name) && name != ""
    requires forall j | 0 <= j < |db.users| :: db.users[j].resetToken != Some(GenerateResetToken(entropy))
    requires later < now + OneHour
    requires |next| >= 6
    ensures var issued := RequestToken(db, RequestBody(name).fields, now, entropy, env, TokenIssued);
            var done := ConsumeToken(issued.db, ConsumeBody(GenerateResetToken(entropy), next).fields, later);
            && done.response == Reply(OkStatus, Done(PasswordReset))
            && |done.db.users| == |db.users|
            && forall j | 0 <= j < |db.users| ::
                 if db.users[j].username == name then
                   && Verify(next, done.db.users[j].passwordHash)
                   && done.db.users[j].resetToken.None?
                 else done.db.users[j] == db.users[j]
  {
    var token := GenerateResetToken(entropy);
    var issued := RequestToken(db, RequestBody(name).fields, now, entropy, env, TokenIssued).db;
    IssuedTokenHeldByRequester(db, name, now, entropy, env);
    var i :| 0 <= i < |db.users| && db.users[i].username == name;
    var body := ConsumeBody(token, next);
    ConsumeBodyFields(token, next);
    assert issued.users[i].resetToken == Some(token) && issued.users[i].resetTokenExpiry == Some(now + OneHour);
    ConsumeOnlyHolder(issued, body.fields, later, i);
    ResetOnlyRequester(db, issued, name, token, now, next, i);
  }

  /** The store the request left, with row `i` reset, differs from the
      original only on the requester's row. */
  lemma ResetOnlyRequester(db: Store, issued: Store, name: string, token: string, now: Time, next: string, i: nat)
    requires Valid(db)
    requires i < |db.users| && db.users[i].username == name
    requires |issued.users| == |db.users|
    requires forall j | 0 <= j < |db.users| ::
               if db.users[j].username == name then
                 issued.users[j] == db.users[j].(resetToken := Some(token), resetTokenExpiry := Some(now + OneHour))
               else issued.users[j] == db.users[j]
    ensures var users := issued.users[i := issued.users[i].(passwordHash := Hash(next),
                                                            resetToken := None, resetTokenExpiry := None)];
            forall j | 0 <= j < |db.users| ::
              if db.users[j].username == name then
                && Verify(next, users[j].passwordHash)
                && users[j].resetToken.None?
              else users[j] == db.users[j]
  {
    forall j | 0 <= j < |db.users| && db.users[j].username == name
      ensures j == i
    {
      UniqueMatch(db, UsernameIs(name), i, j);
    }
  }

  /** With one live holder, consuming the token resets exactly that user. */
  lemma ConsumeOnlyHolder(db: Store, fields: map<string, Json>, now: Time, i: nat)
    requires Valid(db)
    requires ResetFields(fields).Some?
    requires i < |db.users| && Matches(db.users[i], LiveResetToken(ResetFields(fields).value.0, now))
    requires forall j | 0 <= j < |db.users| && j != i :: db.users[j].resetToken != Some(ResetFields(fields).value.0)
    ensures var s := ConsumeToken(db, fields, now);
            && s.response == Reply(OkStatus, Done(PasswordReset))
            && s.db == db.(users := db.users[i := db.users[i].(passwordHash := Hash(ResetFields(fields).value.1),
                                                             resetToken := None, resetTokenExpiry := None)])
  {
    var (token, next) := ResetFields(fields).value;
    assert LiveToken(db, token, now);
    var s := ConsumeToken(db, fields, now);
    var k :| 0 <= k < |db.users| && Matches(db.users[k], LiveResetToken(token, now))
             && s.db == db.(users := db.users[k := db.users[k].(passwordHash := Hash(next),
                                                               resetToken := None,
                                                               resetTokenExpiry := None)]);
    assert k == i;
  }

  /** Once the hour is over the token no longer works, and nothing changes. */
  lemma ExpiredTokenRefused(db: Store, name: string, now: Time, entropy: Entropy, env: NodeEnv,
                            later: Time, next: string)
    requires Valid(db)
    requires HasUsername(db, name) && name != ""
    requires forall j | 0 <= j < |db.users| :: db.users[j].resetToken != Some(GenerateResetToken(entropy))
    requires later >= now + OneHour
    requires |next| >= 6
    ensures var issued := RequestToken(db, RequestBody(name).fields, now, entropy, env, TokenIssued);
            ConsumeToken(issued.db, ConsumeBody(GenerateResetToken(entropy), next).fields, later)
              == Step(Reply(BadRequest, Failure(InvalidToken)), issued.db)
  {
    var token := GenerateResetToken(entropy);
    var issued := RequestToken(db, RequestBody(name).fields, now, entropy, env, TokenIssued).db;
    IssuedTokenHeldByRequester(db, name, now, entropy, env);
    var fields := ConsumeBody(token, next).fields;
    assert ResetFields(fields) == Some((token, next));
    assert !LiveToken(issued, token, later);
  }

  // ---------------------------------------------------------------------
  // existence leak
  // ---------------------------------------------------------------------

  /** As written, the request mode tells a caller whether the user exists:
      with `NODE_ENV` set to production the answer for a known user still
      carries a different message from the one for an unknown user. */
  lemma RequestRevealsExistence(entropy: Entropy)
    ensures var withAdmin := Auth.InitAdminUser(Empty);
            var body := RequestBody("admin");
            var env := Some("production");
            Post(withAdmin, body, 0, entropy, env).response != Post(Empty, body, 0, entropy, env).response
  {
    var withAdmin := Auth.InitAdminUser(Empty);
    assert withAdmin.users[0].username == "admin";
    assert StringField(RequestBody("admin").fields, "username", 1) == Some("admin");
    assert TokenIssued != UnknownUser by {
      assert TokenIssued[0] != UnknownUser[0];
    }
  }

  /** The route with the leak closed: the known-user answer uses the same
      message as the unknown-user one. */
  function PostNoLeak(db: Store, body: Payload, now: Time, entropy: Entropy, env: NodeEnv): (s: Step)
    ensures s.db == Post(db, body, now, entropy, env).db
    ensures s.response.status == Post(db, body, now, entropy, env).response.status
    ensures !Requesting(body) ==> s == Post(db, body, now, entropy, env)
    // the only change: a known user's answer carries the generic message
    ensures var o := Post(db, body, now, entropy, env).response;
            s.response == if o.body.ResetRequested? then o.(body := o.body.(message := UnknownUser)) else o
  {
    Dispatch(db, body, now, entropy, env, UnknownUser)
  }

  /** Outside development, the corrected request mode answers the same
      whatever the store holds. */
  lemma NoLeakIndistinguishable(db1: Store, db2: Store, body: Payload, now: Time, entropy: Entropy, env: NodeEnv)
    requires Requesting(body)
    requires !IsDevelopment(env)
    ensures PostNoLeak(db1, body, now, entropy, env).response == PostNoLeak(db2, body, now, entropy, env).response
  {
  }
}

=== FILE: social_links.dfy ===
/** app/api/auth/social-links/route.ts: three social-network links kept in
    the key/value `Setting` table; anyone may read them, a signed-in
    administrator may overwrite them. */
module SocialLinks {
  import opened Wrappers
  import opened Db
  import opened Http
  import opened Request

  const NotAuthorized: string := "Non autoris\U{00E9}"
  const ServerFailure: string := "Erreur serveur"
  const Updated: string := "Liens des r\U{00E9}seaux sociaux mis \U{00E0} jour"

  /** The setting keys, and the body fields they are written from, in the
      order the handler writes them. */
  const Keys: seq<string> := ["social_facebook", "social_instagram", "social_linkedin"]
  const Names: seq<string> := ["facebook", "instagram", "linkedin"]

  // ---------------------------------------------------------------------
  // GET
  // ---------------------------------------------------------------------

  /** `settings.find(s => s.key === key)?.value || ''`. */
  function Lookup(settings: map<string, string>, key: string): (v: string)
    ensures v == "" <==> key !in settings || settings[key] == ""
    ensures v != "" ==> key in settings && settings[key] == v
  {
    if key in settings then settings[key] else ""
  }

  /** `GET`: the three links, an unset one reading as the empty string. */
  function Get(db: Store): (r: Response)
    ensures r.status == OkStatus && r.setCookie.None?
    ensures r.body.SocialLinks?
    ensures r.body.facebook == "" <==> "social_facebook" !in db.settings || db.settings["social_facebook"] == ""
    ensures r.body.facebook != "" ==> "social_facebook" in db.settings && db.settings["social_facebook"] == r.body.facebook
    ensures r.body.instagram == "" <==> "social_instagram" !in db.settings || db.settings["social_instagram"] == ""
    ensures r.body.instagram != "" ==> "social_instagram" in db.settings && db.settings["social_instagram"] == r.body.instagram
    ensures r.body.linkedin == "" <==> "social_linkedin" !in db.settings || db.settings["social_linkedin"] == ""
    ensures r.body.linkedin != "" ==> "social_linkedin" in db.settings && db.settings["social_linkedin"] == r.body.linkedin
  {
    Reply(OkStatus, SocialLinks(Lookup(db.settings, "social_facebook"),
                                Lookup(db.settings, "social_instagram"),
                                Lookup(db.settings, "social_linkedin")))
  }

  // ---------------------------------------------------------------------
  // POST
  // ---------------------------------------------------------------------

  /** `value || ''` as the upsert receives it: a falsy value is stored as the
      empty string, a truthy string as itself; any other truthy value is not
      a string and the database rejects the write (`None`). */
  function LinkValue(v: Option<Json>): (r: Option<string>)
    ensures v.None? || !Truthy(v.value) ==> r == Some("")
    ensures v.Some? && Truthy(v.value) ==> (r.Some? <==> v.value.JString?)
    ensures r.Some? && r.value != "" ==> v == Some(JString(r.value))
  {
    match v
    case None => Some("")
    case Some(j) =>
      if !Truthy(j) then Some("")
      else if j.JString? then Some(j.s)
      else None
  }

  /** The store after the upserts from position `i` on, and whether all of
      them went through. They run one after the other, so a rejected write
      stops the loop and the earlier ones stay. */
  datatype Saved = Saved(db: Store, ok: bool)

  /** Position `j` was written: its value went through and is what the
      setting now holds. */
  predicate Written(after: map<string, string>, fields: map<string, Json>, j: nat)
    requires j < 3
  {
    && LinkValue(Field(fields, Names[j])).Some?
    && Keys[j] in after && after[Keys[j]] == LinkValue(Field(fields, Names[j])).value
  }

  /** Position `j` was not touched. */
  predicate Untouched(before: map<string, string>, after: map<string, string>, j: nat)
    requires j < 3
  {
    && (Keys[j] in after <==> Keys[j] in before)
    && (Keys[j] in before ==> after[Keys[j]] == before[Keys[j]])
  }

  /** The loop started at `i` and stopped at the rejected write `m`: the
      writes before it stay, none from it on happened. */
  predicate StoppedAt(before: map<string, string>, after: map<string, string>,
                      fields: map<string, Json>, i: nat, m: nat)
    requires i <= m < 3
  {
    && LinkValue(Field(fields, Names[m])).None?
    && (forall j | i <= j < m :: Written(after, fields, j))
    && (forall j | m <= j < 3 :: Untouched(before, after, j))
  }

  /** Only the three link settings differ between the two stores. */
  ghost predicate LinksOnly(before: Store, after: Store) {
    && after == before.(settings := after.settings)
    && (forall k | k !in Keys :: (k in after.settings <==> k in before.settings))
    && (forall k | k !in Keys && k in before.settings :: after.settings[k] == before.settings[k])
  }

  function SaveFrom(db: Store, fields: map<string, Json>, i: nat): (r: Saved)
    requires i <= 3
    decreases 3 - i
    ensures LinksOnly(db, r.db)
    ensures r.ok <==> forall j | i <= j < 3 :: LinkValue(Field(fields, Names[j])).Some?
    ensures r.ok ==> forall j | i <= j < 3 :: Written(r.db.settings, fields, j)
    // a rejected write stops the loop
    ensures !r.ok ==> exists m | i <= m < 3 :: StoppedAt(db.settings, r.db.settings, fields, i, m)
    ensures forall j | 0 <= j < i :: Untouched(db.settings, r.db.settings, j)
    ensures Valid(db) ==> Valid(r.db)
  {
    if i == 3 then Saved(db, true)
    else
      match LinkValue(Field(fields, Names[i]))
      case None =>
        var r := Saved(db, false);
        assert StoppedAt(db.settings, r.db.settings, fields, i, i);
        r
      case Some(v) =>
        var once := Upsert(db, Keys[i], v);
        var r := SaveFrom(once, fields, i + 1);
        WrittenStays(once.settings, r.db.settings, fields, i);
        forall j | 0 <= j < i ensures Untouched(db.settings, r.db.settings, j) {
          UpsertElsewhere(db, i, v, j);
          UntouchedTrans(db.settings, once.settings, r.db.settings, j);
        }
        if r.ok then r
        else
          var m :| i + 1 <= m < 3 && StoppedAt(once.settings, r.db.settings, fields, i + 1, m);
          forall j | m <= j < 3 ensures Untouched(db.settings, r.db.settings, j) {
            UpsertElsewhere(db, i, v, j);
            UntouchedTrans(db.settings, once.settings, r.db.settings, j);
          }
          assert StoppedAt(db.settings, r.db.settings, fields, i, m);
          r
  }

  /** The setting keys are pairwise distinct. */
  lemma KeysDistinct(a: nat, b: nat)
    requires a < 3 && b < 3 && a != b
    ensures Keys[a] != Keys[b]
  {
    assert Keys[a][7] != Keys[b][7];
  }

  /** An upsert of one link leaves the other two untouched. */
  lemma UpsertElsewhere(db: Store, i: nat, v: string, j: nat)
    requires i < 3 && j < 3 && i != j
    ensures Untouched(db.settings, Upsert(db, Keys[i], v).settings, j)
  {
    KeysDistinct(i, j);
  }

  lemma UntouchedTrans(a: map<string, string>, b: map<string, string>, c: map<string, string>, j: nat)
    requires j < 3 && Untouched(a, b, j) && Untouched(b, c, j)
    ensures Untouched(a, c, j)
  {
  }

  /** A write that later steps leave untouched stays written. */
  lemma WrittenStays(before: map<string, string>, after: map<string, string>, fields: map<string, Json>, j: nat)
    requires j < 3 && Written(before, fields, j) && Untouched(before, after, j)
    ensures Written(after, fields, j)
  {
  }

  /** `POST`; `authenticated` is the verdict of `verifyAuth`, which is not
      part of this model. */
  function Post(db: Store, authenticated: bool, body: Payload): (s: Step)
    ensures s.response.setCookie.None?
    ensures !authenticated ==> s == Step(Reply(Unauthorized, Failure(NotAuthorized)), db)
    ensures authenticated && body.Unparseable? ==> s == Step(Reply(ServerError, Failure(ServerFailure)), db)
    ensures s.response.status == OkStatus <==>
              authenticated && body.Object? && forall j | 0 <= j < 3 :: LinkValue(Field(body.fields, Names[j])).Some?
    ensures s.response.status == OkStatus ==> s.response.body == Done(Updated)
    ensures s.response.status != OkStatus ==> s.response.status in {Unauthorized, ServerError}
    // a rejected link answers 500 and keeps the writes made before it
    ensures authenticated && body.Object? && s.response.status != OkStatus ==>
              && s.response == Reply(ServerError, Failure(ServerFailure))
              && exists m | 0 <= m < 3 :: StoppedAt(db.settings, s.db.settings, body.fields, 0, m)
    ensures s.response.status == OkStatus ==>
              body.Object? && forall j | 0 <= j < 3 :: Written(s.db.settings, body.fields, j)
    // only the three link settings can change
    ensures s.db == db.(settings := s.db.settings)
    ensures forall k | k !in Keys :: (k in s.db.settings <==> k in db.settings)
    ensures forall k | k !in Keys && k in db.settings :: s.db.settings[k] == db.settings[k]
    ensures Valid(db) ==> Valid(s.db)
  {
    if !authenticated then Step(Reply(Unauthorized, Failure(NotAuthorized)), db)
    else match body
      case Unparseable => Step(Reply(ServerError, Failure(ServerFailure)), db)
      case Object(fields) =>
        var saved := SaveFrom(db, fields, 0);
        if saved.ok then Step(Reply(OkStatus, Done(Updated)), saved.db)
        else Step(Reply(ServerError, Failure(ServerFailure)), saved.db)
  }

  /** What a successful update stores is what the next `GET` returns, an
      omitted or falsy link reading back as the empty string. */
  lemma {:induction false} PostThenGet(db: Store, fields: map<string, Json>)
    requires Post(db, true, Object(fields)).response.status == OkStatus
    ensures var after := Post(db, true, Object(fields)).db;
            Get(after).body == SocialLinks(LinkValue(Field(fields, "facebook")).value,
                                           LinkValue(Field(fields, "instagram")).value,
                                           LinkValue(Field(fields, "linkedin")).value)
  {
    var saved := SaveFrom(db, fields, 0);
    assert saved.ok;
    assert forall j | 0 <= j < 3 :: Keys[j] in saved.db.settings
             && saved.db.settings[Keys[j]] == LinkValue(Field(fields, Names[j])).value;
    assert Keys[0] == "social_facebook" && Names[0] == "facebook";
    assert Keys[1] == "social_instagram" && Names[1] == "instagram";
    assert Keys[2] == "social_linkedin" && Names[2] == "linkedin";
  }

  /** A link that is a truthy non-string fails the request with 500, yet the
      links written before it stay written. */
  lemma {:induction false} PartialUpdate(db: Store, fields: map<string, Json>, facebook: string)
    requires Field(fields, "facebook") == Some(JString(facebook))
    requires Field(fields, "instagram").Some? && Truthy(Field(fields, "instagram").value)
    requires !Field(fields, "instagram").value.JString?
    ensures var s := Post(db, true, Object(fields));
            && s.response.status == ServerError
            && "social_facebook" in s.db.settings && s.db.settings["social_facebook"] == facebook
  {
    assert Keys[0] == "social_facebook" && Names[0] == "facebook" && Names[1] == "instagram";
    var s := Post(db, true, Object(fields));
    assert LinkValue(Field(fields, Names[1])).None?;
    var m :| 0 <= m < 3 && StoppedAt(db.settings, s.db.settings, fields, 0, m);
    assert LinkValue(Field(fields, Names[0])) == Some(facebook);
    assert Written(s.db.settings, fields, 0);
  }
}

=== FILE: text.dfy ===
/** The pieces of JavaScript string behaviour the handlers rely on:
    `String.prototype.trim`, prefix tests, `Number(s)` on decimal strings,
    `String(n)` on non-negative integers, and `Buffer.toString('hex')`. */
module Text {
  import opened Wrappers

  // ---------------------------------------------------------------------
  // trim
  // ---------------------------------------------------------------------

  /** The characters `trim` removes: ECMAScript WhiteSpace and LineTerminator. */
  predicate IsWhitespace(c: char) {
    || c == ' ' || c == '\t' || c == '\n' || c == '\r'
    || c == '\U{000B}' || c == '\U{000C}' || c == '\U{00A0}' || c == '\U{1680}'
    || ('\U{2000}' <= c <= '\U{200A}')
    || c == '\U{2028}' || c == '\U{2029}' || c == '\U{202F}' || c == '\U{205F}'
    || c == '\U{3000}' || c == '\U{FEFF}'
  }

  predicate AllWhitespace(s: string) {
    forall i | 0 <= i < |s| :: IsWhitespace(s[i])
  }

  /** Number of leading whitespace characters. */
  function LeadingSpace(s: string): (k: nat)
    ensures k <= |s|
    ensures AllWhitespace(s[..k])
    ensures k < |s| ==> !IsWhitespace(s[k])
  {
    if |s| > 0 && IsWhitespace(s[0]) then
      var k := 1 + LeadingSpace(s[1..]);
      assert s[..k] == [s[0]] + s[1..][..k - 1];
      k
    else 0
  }

  /** Index where the trailing whitespace begins. */
  function TrailingStart(s: string): (k: nat)
    ensures k <= |s|
    ensures AllWhitespace(s[k..])
    ensures k > 0 ==> !IsWhitespace(s[k - 1])
  {
    if |s| > 0 && IsWhitespace(s[|s| - 1]) then
      var k := TrailingStart(s[..|s| - 1]);
      assert s[k..] == s[..|s| - 1][k..] + [s[|s| - 1]];
      k
    else |s|
  }

  /** `s.trim()`: the longest infix of `s` with no whitespace at either end,
      obtained by dropping only whitespace. */
  function Trim(s: string): (r: string)
    ensures LeadingSpace(s) + |r| <= |s|
    ensures r == s[LeadingSpace(s)..LeadingSpace(s) + |r|]
    ensures AllWhitespace(s[..LeadingSpace(s)]) && AllWhitespace(s[LeadingSpace(s) + |r|..])
    ensures r == [] <==> AllWhitespace(s)
    ensures r != [] ==> !IsWhitespace(r[0]) && !IsWhitespace(r[|r| - 1])
  {
    var a := LeadingSpace(s);
    var t := s[a..];
    var b := TrailingStart(t);
    assert s[a + b..] == t[b..];
    if b == 0 then
      assert s == s[..a];
      []
    else
      assert !AllWhitespace(s) by { assert s[a] == t[0]; }
      t[..b]
  }

  /** Trimming a string that has no whitespace at either end leaves it as is. */
  lemma {:induction false} TrimClean(s: string)
    requires s != [] && !IsWhitespace(s[0]) && !IsWhitespace(s[|s| - 1])
    ensures Trim(s) == s
  {
  }

  /** `trim` is idempotent. */
  lemma {:induction false} TrimIdempotent(s: string)
    ensures Trim(Trim(s)) == Trim(s)
  {
    if Trim(s) != [] {
      TrimClean(Trim(s));
    }
  }

  // ---------------------------------------------------------------------
  // decimal numbers: String(n) and Number(s)
  // ---------------------------------------------------------------------

  predicate IsDigit(c: char) {
    '0' <= c <= '9'
  }

  predicate AllDigits(s: string) {
    forall i | 0 <= i < |s| :: IsDigit(s[i])
  }

  function DigitChar(d: nat): (c: char)
    requires d < 10
    ensures IsDigit(c) && c as int - '0' as int == d
  {
    (d + '0' as int) as char
  }

  /** `String(n)` / template interpolation of a non-negative integer. */
  function Show(n: nat): (r: string)
    ensures r != [] && AllDigits(r)
    ensures n < 10 <==> |r| == 1
  {
    if n < 10 then [DigitChar(n)] else Show(n / 10) + [DigitChar(n % 10)]
  }

  /** Value of a string of decimal digits. */
  function DigitsValue(s: string): nat
    requires AllDigits(s)
  {
    if s == [] then 0
    else 10 * DigitsValue(s[..|s| - 1]) + (s[|s| - 1] as int - '0' as int)
  }

  /** `Number(s)` restricted to decimal digit strings; everything else is NaN. */
  function ParseDecimal(s: string): (r: Option<nat>)
    ensures r.Some? <==> s != [] && AllDigits(s)
  {
    if s != [] && AllDigits(s) then Some(DigitsValue(s)) else None
  }

  /** Printing a number and reading it back gives the number. */
  lemma {:induction false} ParseShow(n: nat)
    ensures ParseDecimal(Show(n)) == Some(n)
  {
    ShowValue(n);
  }

  lemma {:induction false} ShowValue(n: nat)
    ensures DigitsValue(Show(n)) == n
  {
    if n >= 10 {
      ShowValue(n / 10);
      var s := Show(n);
      assert s[..|s| - 1] == Show(n / 10);
    }
  }

  /** Distinct numbers print differently. */
  lemma ShowInjective(m: nat, n: nat)
    requires Show(m) == Show(n)
    ensures m == n
  {
    ParseShow(m);
    ParseShow(n);
  }

  // ---------------------------------------------------------------------
  // hex: Buffer.toString('hex')
  // ---------------------------------------------------------------------

  type Byte = x: int | 0 <= x < 256

  predicate IsHexDigit(c: char) {
    IsDigit(c) || 'a' <= c <= 'f'
  }

  function HexDigit(d: nat): (c: char)
    requires d < 16
    ensures IsHexDigit(c)
  {
    if d < 10 then DigitChar(d) else (d - 10 + 'a' as int) as char
  }

  function HexValue(c: char): (d: nat)
    requires IsHexDigit(c)
    ensures d < 16
  {
    if IsDigit(c) then c as int - '0' as int else c as int - 'a' as int + 10
  }

  /** Two lower-case hex digits per byte, most significant first. */
  function ToHex(bytes: seq<Byte>): (r: string)
    ensures |r| == 2 * |bytes|
    ensures forall i | 0 <= i < |r| :: IsHexDigit(r[i])
  {
    if bytes == [] then []
    else [HexDigit(bytes[0] / 16), HexDigit(bytes[0] % 16)] + ToHex(bytes[1..])
  }

  /** The inverse of `ToHex`: `None` on odd length or a non-hex character. */
  function FromHex(s: string): (r: Option<seq<Byte>>)
    ensures r.Some? ==> 2 * |r.value| == |s|
    decreases |s|
  {
    if s == [] then Some([])
    else if |s| < 2 || !IsHexDigit(s[0]) || !IsHexDigit(s[1]) then None
    else
      match FromHex(s[2..])
      case None => None
      case Some(rest) => Some([16 * HexValue(s[0]) + HexValue(s[1])] + rest)
  }

  lemma HexDigitValue(d: nat)
    requires d < 16
    ensures HexValue(HexDigit(d)) == d
  {
  }

  /** Hex encoding loses nothing: decoding it gives the bytes back. */
  lemma {:induction false} FromHexToHex(bytes: seq<Byte>)
    ensures FromHex(ToHex(bytes)) == Some(bytes)
  {
    if bytes != [] {
      var s := ToHex(bytes);
      assert s[2..] == ToHex(bytes[1..]);
      FromHexToHex(bytes[1..]);
      HexDigitValue(bytes[0] / 16);
      HexDigitValue(bytes[0] % 16);
      assert bytes == [bytes[0]] + bytes[1..];
    }
  }

  /** Distinct byte strings have distinct hex encodings. */
  lemma ToHexInjective(a: seq<Byte>, b: seq<Byte>)
    requires ToHex(a) == ToHex(b)
    ensures a == b
  {
    FromHexToHex(a);
    FromHexToHex(b);
  }
}

=== FILE: upload.dfy ===
/** app/api/upload/route.ts: accepts one image from a multipart form, checks
    its type and size, writes it under `public/images/` with a timestamped,
    sanitised name and returns its public path. */
module Upload {
  import opened Wrappers
  import opened Text
  import opened Http
  import opened Request
  import Projects
  import opened Db

  const NoFile: string := "Aucun fichier fourni"
  const WrongType: string := "Type de fichier non autoris\U{00E9}. Utilisez JPEG, PNG, WebP ou GIF."
  const TooLarge: string := "Fichier trop volumineux. Taille maximale : 5MB"
  const UploadFailed: string := "Erreur lors de l'upload"

  const AllowedTypes: seq<string> := ["image/jpeg", "image/jpg", "image/png", "image/webp", "image/gif"]

  /** 5 MB, in bytes. */
  const MaxSize: nat := 5 * 1024 * 1024

  /** What `formData.get('file')` yields: a file (name, MIME type, size in
      bytes) or a plain text field. */
  datatype Entry = FilePart(name: string, mime: string, size: nat) | TextPart(text: string)

  /** The request: its form cannot be read (`req.formData()` throws), or it
      can and may carry a `file` entry. */
  datatype Form = UnreadableForm | Form(file: Option<Entry>)

  /** The response, and the name of the file written under `public/images/`
      if one was. */
  datatype Upload = Upload(response: Response, written: Option<string>)

  // ---------------------------------------------------------------------
  // file names
  // ---------------------------------------------------------------------

  /** The characters `/[^a-zA-Z0-9.-]/` leaves alone. */
  predicate Kept(c: char) {
    ('a' <= c <= 'z') || ('A' <= c <= 'Z') || ('0' <= c <= '9') || c == '.' || c == '-'
  }

  /** `name.replace(/[^a-zA-Z0-9.-]/g, '_')`. */
  function Sanitize(name: string): (r: string)
    ensures |r| == |name|
    ensures forall i | 0 <= i < |r| :: r[i] == (if Kept(name[i]) then name[i] else '_')
  {
    if name == [] then []
    else [if Kept(name[0]) then name[0] else '_'] + Sanitize(name[1..])
  }

  /** A sanitised name holds only kept characters and underscores: no path
      separator and no whitespace. */
  lemma SanitizeSafe(name: string)
    ensures forall i | 0 <= i < |Sanitize(name)| ::
              && (Kept(Sanitize(name)[i]) || Sanitize(name)[i] == '_')
              && Sanitize(name)[i] != '/' && Sanitize(name)[i] != '\\'
              && !IsWhitespace(Sanitize(name)[i])
  {
  }

  /** Names already made of kept characters pass through unchanged. */
  lemma SanitizeKeepsSafeNames(name: string)
    requires forall i | 0 <= i < |name| :: Kept(name[i])
    ensures Sanitize(name) == name
  {
  }

  lemma SanitizeIdempotent(name: string)
    ensures Sanitize(Sanitize(name)) == Sanitize(name)
  {
  }

  /** `${timestamp}_${sanitizedName}`. */
  function FileName(now: Time, name: string): (r: string)
    ensures |r| == |Show(now)| + 1 + |name|
    // the name starts with a timestamp that reads back as `now`
    ensures ParseDecimal(r[..|Show(now)|]) == Some(now) && r[|Show(now)|] == '_'
    // followed by the sanitised original name
    ensures r[|Show(now)| + 1..] == Sanitize(name)
    // and holds no path separator or white space
    ensures forall i | 0 <= i < |r| :: r[i] != '/' && r[i] != '\\' && !IsWhitespace(r[i])
  {
    var r := Show(now) + "_" + Sanitize(name);
    var k := |Show(now)|;
    assert r[..k] == Show(now);
    ParseShow(now);
    SanitizeSafe(name);
    forall i | 0 <= i < |r|
      ensures r[i] != '/' && r[i] != '\\' && !IsWhitespace(r[i])
    {
      if i < k {
        assert r[i] == Show(now)[i];
        assert IsDigit(Show(now)[i]);
      } else if k < i {
        assert r[i] == Sanitize(name)[i - k - 1];
      }
    }
    r
  }

  // ---------------------------------------------------------------------
  // POST
  // ---------------------------------------------------------------------

  /** The `!file` test: no entry, or an empty text field. */
  predicate Missing(file: Option<Entry>) {
    file.None? || file.value == TextPart("")
  }

  /** `allowedTypes.includes(file.type)`; a text field has no type. */
  predicate TypeAllowed(e: Entry) {
    e.FilePart? && e.mime in AllowedTypes
  }

  /** `POST` at time `now` (`Date.now()`); `writeOk` says whether creating
      the directory and writing the file succeed. */
  function Post(form: Form, now: Time, writeOk: bool): (u: Upload)
    ensures u.response.setCookie.None?
    ensures form.UnreadableForm? ==> u == Upload(Reply(ServerError, Failure(UploadFailed)), None)
    ensures form.Form? && Missing(form.file) ==> u == Upload(Reply(BadRequest, Failure(NoFile)), None)
    ensures form.Form? && !Missing(form.file) && !TypeAllowed(form.file.value) ==>
              u == Upload(Reply(BadRequest, Failure(WrongType)), None)
    ensures form.Form? && !Missing(form.file) && TypeAllowed(form.file.value) && form.file.value.size > MaxSize ==>
              u == Upload(Reply(BadRequest, Failure(TooLarge)), None)
    ensures form.Form? && !Missing(form.file) && TypeAllowed(form.file.value) && form.file.value.size <= MaxSize && !writeOk ==>
              u == Upload(Reply(ServerError, Failure(UploadFailed)), None)
    ensures u.response.status == OkStatus <==>
              && form.Form? && form.file.Some? && TypeAllowed(form.file.value)
              && form.file.value.size <= MaxSize && writeOk
    ensures u.response.status != OkStatus ==> u.written.None?
    ensures u.response.status == OkStatus ==>
              && u.written == Some(FileName(now, form.file.value.name))
              && u.response.body == ImageStored(Projects.ImagePrefix + u.written.value)
  {
    match form
    case UnreadableForm => Upload(Reply(ServerError, Failure(UploadFailed)), None)
    case Form(file) =>
      if Missing(file) then Upload(Reply(BadRequest, Failure(NoFile)), None)
      else if !TypeAllowed(file.value) then Upload(Reply(BadRequest, Failure(WrongType)), None)
      else if file.value.size > MaxSize then Upload(Reply(BadRequest, Failure(TooLarge)), None)
      else if !writeOk then Upload(Reply(ServerError, Failure(UploadFailed)), None)
      else
        var filename := FileName(now, file.value.name);
        Upload(Reply(OkStatus, ImageStored(Projects.ImagePrefix + filename)), Some(filename))
  }

  /** A path made of the image directory and a name that does not end in
      white space survives the normalisation and meets the image rule. */
  lemma {:induction false} PrefixedNameAccepted(f: string)
    requires f != [] && !IsWhitespace(f[|f| - 1])
    ensures var url := Projects.ImagePrefix + f;
            && Projects.NormalizeImageUrl(Some(JString(url))) == Some(url)
            && Projects.ImageUrlAccepted(Some(url))
  {
    var url := Projects.ImagePrefix + f;
    assert url[..|Projects.ImagePrefix|] == Projects.ImagePrefix;
    assert url[0] == '/';
    assert url[|url| - 1] == f[|f| - 1];
    assert !AllWhitespace(url) by { assert !IsWhitespace(url[0]); }
    TrimClean(url);
  }

  /** Any path this route hands out is one the project form accepts as it
      is: the normalisation leaves it untouched and it lies under the image
      directory. */
  lemma {:induction false} UploadedUrlAccepted(form: Form, now: Time, writeOk: bool)
    requires Post(form, now, writeOk).response.status == OkStatus
    ensures var url := Post(form, now, writeOk).response.body.imageUrl;
            && Projects.NormalizeImageUrl(Some(JString(url))) == Some(url)
            && Projects.ImageUrlAccepted(Some(url))
  {
    var f := FileName(now, form.file.value.name);
    assert !IsWhitespace(f[|f| - 1]);
    PrefixedNameAccepted(f);
  }
}

=== FILE: wrappers.dfy ===
/** The optional value used wherever the source has `null`, `undefined` or a
    Prisma lookup that may find nothing. */
module Wrappers {

  datatype Option<+T> = None | Some(value: T) {

    /** The value, or `default` when there is none (JavaScript's `?? default`). */
    function GetOr(default: T): T {
      match this
      case Some(v) => v
      case None => default
    }
  }
}
